=== FILE: README.md ===
# OVF descriptor layer and export parameters, in Dafny

This project models the OVF descriptor layer of the Compute Engine OVF import
tool, together with the small parameter domain of the OVF export tool.

OVF is the DMTF Open Virtualization Format (DSP0243). The parts modelled are
its References section, its DiskSection (section 9.1 of DSP0243) and its
VirtualHardwareSection of RASD items. Capacities and allocation units use the
`byte * 2^n` programmatic-unit notation of DMTF DSP0004, Annex C.

The model covers the following:

- **Descriptor records** (`ovf_model.dfy`). Every optional section and every
  optional scalar of the Go structs is an `Option`. "Absent" therefore stays
  distinct from "present but empty".
- **Section getters** (`ovf_hardware.dfy`). These are the VirtualSystem
  getter and the hardware-section getters, plus the CPU count and the memory
  size. The CPU and memory values come from the first matching item.
- **Unit text** (`allocation_units.dfy`). A parser reads `byte * 2^n`
  (n = 20, 30 or 40) and tolerates white space around the tokens. Disk
  capacities are normalised to whole GB and memory sizes to MB.
- **Disk resolver** (`ovf_disks.dfy`). It joins each disk item to its
  controller, then through `ovf:/disk/<id>` to a VirtualDisk, then through
  `fileRef` to a File href. Disks come out controller by controller, in the
  order the controllers are listed; within one controller they are sorted by
  AddressOnParent.
- **Package entry point** (`ovf_package.dfy`). It loads the descriptor,
  resolves the disks, and puts the package path in front of each href.
- **Package validator** (`ovf_validator.dfy`). It checks, in order, that each
  referenced file exists in storage, and stops at the first one that does not.
  The check is an imperative loop proved against a specification function.
- **Descriptor loader** (`ovf_loader.dfy`). Loading is a chain: find the
  `.ovf` file, read it, parse it, then validate it. The loader records the
  calls it makes on its collaborators.
- **Export parameters** (`export_params.dfy`, `export_params_validator.dfy`).
  These are the export-kind predicates, the mapping to workflow attributes,
  and the field rules. The field rules all run before the external zone
  check.
- **Worked descriptors** (`ovf_disk_scenarios.dfy`,
  `ovf_package_scenarios.dfy`). These are the concrete controller and disk
  layouts of `ovf_utils_test.go`, with the exact results the resolver gives
  for them.

Storage, XML decoding and the zone validator are collaborators. The model
holds them as function values, as parameters or as fields of the loader and
validator datatypes.

The implementation file of package `ovfutils` is not part of this model.
The behaviour of its functions is taken from the assertions in
`ovf_utils_test.go` and `ovf_loader_test.go`.

Those assertions settle part of the disk order. If `GetDiskInfos` is read
as resolving disks in item document order without regard to controllers,
`ovf_utils_test.go:47-99` contradicts that reading. The model therefore
groups disks by controller and sorts each group by AddressOnParent. Two
choices stay open:

- The controllers in those assertions have ids 3, 4 and 5, listed in that
  order, so listing order and InstanceID order agree. The model takes
  listing order.
- The addresses there are only "0" and "1", so string order and numeric
  order agree. The model compares addresses as Go strings.

The assertions also constrain two unit conversions:

- Memory in MB is kept as is (`ovf_utils_test.go:346-356`).
- MB disk capacities (`ovf_utils_test.go:292-295`) are 1, 1024 and
  5242880 MB. Rounding up to whole GB fits all three, and so does
  `max(1, n / 1024)` with truncating division. The two readings differ
  at 0 MB, and at every MB count above 1024 that is not a multiple of
  1024. The model rounds up.

## Model

| member | source | states |
|---|---|---|
| OvfHardware.GetVirtualSystem | cli_tools/gce_ovf_import/ovf_utils/ovf_utils_test.go:239-257 | Ok exactly when the descriptor and its VirtualSystem are present, and then it is that VirtualSystem; a nil descriptor gives NilDescriptor, a nil VirtualSystem gives NoVirtualSystem |
| OvfHardware.GetVirtualHardwareSection | cli_tools/gce_ovf_import/ovf_utils/ovf_utils_test.go:213-237 | Ok exactly when the list of hardware sections is present and non-empty, and then it is the first section; otherwise NilVirtualSystem or NoVirtualHardware |
| OvfHardware.GetVirtualHardwareSectionFromDescriptor | cli_tools/gce_ovf_import/ovf_utils/ovf_utils_test.go:259-282 | Ok exactly when descriptor, VirtualSystem and a non-empty section list are all present, and then it is the first section; every error is NilDescriptor, NoVirtualSystem or NoVirtualHardware |
| OvfHardware.FirstOfType | cli_tools/gce_ovf_import/ovf_utils/ovf_utils_test.go:314-326 | the index found holds an item of the type and no earlier item has it; None means no item has the type |
| OvfHardware.GetNumberOfCPUs | cli_tools/gce_ovf_import/ovf_utils/ovf_utils_test.go:302-344 | Ok exactly when the first CPU item has a VirtualQuantity, and then it is that quantity; nil hardware gives NilVirtualHardware, otherwise NoCPUSpec |
| OvfHardware.CpusFirstWins | cli_tools/gce_ovf_import/ovf_utils/ovf_utils_test.go:314-326 | whatever follows the first CPU item does not change the CPU count |
| OvfHardware.GetMemoryInMB | cli_tools/gce_ovf_import/ovf_utils/ovf_utils_test.go:346-434 | reads the first memory item; MB count times 1 MiB equals quantity times the unit's byte size; nil hardware, a missing memory item or quantity, missing units and unrecognised units each give their own error |
| OvfHardware.MemoryFirstWins | cli_tools/gce_ovf_import/ovf_utils/ovf_utils_test.go:358-370 | the memory size is that of the first memory item alone, whatever precedes or follows it |
| AllocationUnits.UnitExponent | cli_tools/gce_ovf_import/ovf_utils/ovf_utils_test.go:284-300 | an exponent that is accepted is one of 20, 30 and 40 |
| AllocationUnits.UnitExponentOfFormatted | cli_tools/gce_ovf_import/ovf_utils/ovf_utils_test.go:60-85 | `byte * 2^n`, with any run of spaces before n and after it, is read as n for each recognised n |
| AllocationUnits.RejectedUnits | cli_tools/gce_ovf_import/ovf_utils/ovf_utils_test.go:393-403 | empty unit text and unit text in another notation are rejected |
| AllocationUnits.CapacityValue | cli_tools/gce_ovf_import/ovf_utils/ovf_utils_test.go:284-300 | a capacity text is accepted exactly when it is a non-empty run of digits; otherwise InvalidCapacityValue names the text |
| AllocationUnits.CapacityInGB | cli_tools/gce_ovf_import/ovf_utils/ovf_utils_test.go:284-300 | Ok exactly when capacity and units are both valid; GB are kept, TB are multiplied by 1024, and MB become the least whole GB count holding them; each error names the offending text |
| AllocationUnits.CapacityInGBBytes | cli_tools/gce_ovf_import/ovf_utils/ovf_utils_test.go:292-295 | the GB result never holds fewer bytes than the capacity, and holds less than one GB more |
| AllocationUnits.MemoryInMB | cli_tools/gce_ovf_import/ovf_utils/ovf_utils_test.go:346-391 | Ok exactly when the units are recognised, and then the MB count times 1 MiB equals the size in bytes |
| AllocationUnits.MegabyteCapacities | cli_tools/gce_ovf_import/ovf_utils/ovf_utils_test.go:292-295 | 1 MB and 1024 MB give 1 GB, and 5242880 MB give 5120 GB |
| AllocationUnits.GigabyteCapacities | cli_tools/gce_ovf_import/ovf_utils/ovf_utils_test.go:285-290 | 20, 10, 1, 1024 and 5242880 GB are kept |
| AllocationUnits.TerabyteCapacities | cli_tools/gce_ovf_import/ovf_utils/ovf_utils_test.go:297-299 | 1 TB gives 1024 GB and 5242880 TB give 5242880 * 1024 GB |
| AllocationUnits.SpacedGigabyteCapacities | cli_tools/gce_ovf_import/ovf_utils/ovf_utils_test.go:60-85 | capacities 11 and 12 in `byte * 2^ 30   ` are 11 and 12 GB |
| AllocationUnits.MemoryExamples | cli_tools/gce_ovf_import/ovf_utils/ovf_utils_test.go:346-391 | 16 MB give 16, 7 GB give 7168, 3 GB with spaced units give 3072, and 5 TB give 5242880 |
| Seqs.FindFirst | cli_tools/gce_ovf_import/ovf_utils/ovf_utils_test.go:116-146 | an element found is in the sequence and has the key; None exactly when no element has the key (the VirtualDisk lookup by disk id and the File lookup by file id) |
| Seqs.FindFirstAt | cli_tools/gce_ovf_import/ovf_utils/ovf_utils_test.go:116-146 | when several elements share the key, the first of them is the one found |
| OvfDisks.HostResourceDiskId | cli_tools/gce_ovf_import/ovf_utils/ovf_utils_test.go:101-114 | Ok exactly when the first HostResource starts with `ovf:/disk/`, and the resource is then that prefix followed by the id; otherwise InvalidHostResourceFormat |
| OvfDisks.ResolveDisk | cli_tools/gce_ovf_import/ovf_utils/ovf_utils_test.go:101-146 | a bad host resource, an unknown disk id, a missing fileRef, an unknown file, missing allocation units and an invalid capacity each give their own error; when the disk and its file are found and the capacity converts, the result is the file's href with that capacity in GB |
| OvfDisks.ResolveAll | cli_tools/gce_ovf_import/ovf_utils/ovf_utils_test.go:32-40 | Ok exactly when every item resolves, with one entry per item in order; an error is the error of some item |
| OvfDisks.SortByAddress | cli_tools/gce_ovf_import/ovf_utils/ovf_utils_test.go:47-58 | the result is ordered by AddressOnParent and is a permutation of the input |
| OvfDisks.GetDiskInfos | cli_tools/gce_ovf_import/ovf_utils/ovf_utils_test.go:32-211 | nil hardware, a nil DiskSection, nil or empty disks, nil files and a section without controllers are errors, checked in that order; past those checks the result is the resolution of every disk in attachment order, stopping at the first failure |
| OvfDisks.ResolutionOrderMembers | cli_tools/gce_ovf_import/ovf_utils/ovf_utils_test.go:148-161 | a disk item is in the attachment order exactly when its parent is a controller of the section |
| OvfDisks.ResolutionOrderCounts | cli_tools/gce_ovf_import/ovf_utils/ovf_utils_test.go:148-161 | with distinct controller ids, each disk on a known controller appears in the order exactly as often as in the section |
| OvfDisks.ResolutionOrderSkips | cli_tools/gce_ovf_import/ovf_utils/ovf_utils_test.go:148-161 | inserting a disk whose parent is unknown anywhere among the disk items leaves the order unchanged |
| OvfDisks.OrphanDiskSkipped | cli_tools/gce_ovf_import/ovf_utils/ovf_utils_test.go:148-161 | a disk item on an unknown controller, inserted anywhere, changes neither the order nor the disk list, even if its host resource resolves nowhere |
| OvfDisks.NothingAttached | cli_tools/gce_ovf_import/ovf_utils/ovf_utils_test.go:148-173 | past the nil checks, controllers with no disk item attached to them (no disk items at all, or only disks on unknown Parents) give an empty attachment order and an empty disk list, not an error |
| OvfDisks.SortedPermutationsEqual | cli_tools/gce_ovf_import/ovf_utils/ovf_utils_test.go:47-58 | two address-sorted permutations of disks with distinct addresses are equal |
| OvfDisks.ResolutionOrderOfPermutation | cli_tools/gce_ovf_import/ovf_utils/ovf_utils_test.go:47-99 | reordering the disk items does not change the attachment order when addresses are unique per controller |
| OvfDisks.DocumentOrderOfDisksIrrelevant | cli_tools/gce_ovf_import/ovf_utils/ovf_utils_test.go:47-99 | two sections with the same controllers and the same disk items in any order resolve to the same disk list |
| OvfDiskScenarios.DisksOnSingleControllerOutOfOrder | cli_tools/gce_ovf_import/ovf_utils/ovf_utils_test.go:47-58 | two disks on one SCSI controller, listed address 1 first, give disk1 (20 GB) then disk2 (1 GB) |
| OvfDiskScenarios.AllocationUnitExtraSpace | cli_tools/gce_ovf_import/ovf_utils/ovf_utils_test.go:60-85 | with units `byte * 2^ 30   ` the same layout gives 11 GB and 12 GB |
| OvfDiskScenarios.SeparateControllersOrder | cli_tools/gce_ovf_import/ovf_utils/ovf_utils_test.go:87-99 | a disk on controller 3 precedes a disk on controller 5 whatever their item order |
| OvfDiskScenarios.DisksOnSeparateControllersOutOfOrder | cli_tools/gce_ovf_import/ovf_utils/ovf_utils_test.go:87-99 | disks on controllers 5 and 3, listed in that order, give disk1 then disk2 |
| OvfDiskScenarios.InvalidDiskReferenceFormat | cli_tools/gce_ovf_import/ovf_utils/ovf_utils_test.go:101-114 | a host resource without the `ovf:/disk/` prefix fails with InvalidHostResourceFormat naming it |
| OvfDiskScenarios.MissingDiskReference | cli_tools/gce_ovf_import/ovf_utils/ovf_utils_test.go:116-129 | a reference to a disk id absent from the DiskSection fails with DiskReferenceNotFound |
| OvfDiskScenarios.MissingFileReference | cli_tools/gce_ovf_import/ovf_utils/ovf_utils_test.go:131-146 | a disk whose file is absent from the References fails with FileReferenceNotFound("file2") |
| OvfDiskScenarios.DiskWithoutParentController | cli_tools/gce_ovf_import/ovf_utils/ovf_utils_test.go:148-161 | a third disk on controller 123 is skipped and the result is the two default disks |
| OvfDiskScenarios.NoControllers | cli_tools/gce_ovf_import/ovf_utils/ovf_utils_test.go:163-173 | disk items without any controller give NoDiskControllers |
| OvfDiskScenarios.NilInputs | cli_tools/gce_ovf_import/ovf_utils/ovf_utils_test.go:175-199 | nil files, a nil DiskSection, nil disks, empty disks and nil hardware each give their error |
| OvfPackage.DescriptorDiskInfos | cli_tools/gce_ovf_import/ovf_utils/ovf_utils_test.go:491-568 | a getter error is passed on; a descriptor without References gives NoReferencesSection; otherwise it is the disk resolver's answer on the first hardware section |
| OvfPackage.WithPackagePath | cli_tools/gce_ovf_import/ovf_utils/ovf_utils_test.go:466-472 | one entry per disk, the path being the package path followed by the href, sizes kept |
| OvfPackage.GetOVFDescriptorAndDiskPaths | cli_tools/gce_ovf_import/ovf_utils/ovf_utils_test.go:436-568 | a load error or a resolution error is returned alone; when both succeed the result is the loaded descriptor, unchanged, with one path per resolved disk, each the package path followed by the href, sizes kept |
| OvfPackage.DiskPathsResolve | cli_tools/gce_ovf_import/ovf_utils/ovf_utils_test.go:436-474 | every returned path, without the package path, is the href of the File of the disk at that place in attachment order, with that disk's size |
| OvfPackageScenarios.DiskPathsUnderPackage | cli_tools/gce_ovf_import/ovf_utils/ovf_utils_test.go:436-474 | under `gs://abucket/apath/` the sample package yields the descriptor and the two prefixed paths of 20 GB and 1 GB |
| OvfPackageScenarios.PackageMissingSections | cli_tools/gce_ovf_import/ovf_utils/ovf_utils_test.go:491-568 | a missing VirtualSystem, hardware list, DiskSection or References section gives NoVirtualSystem, NoVirtualHardware, NilDiskSection or NoReferencesSection |
| OvfValidation.FirstMissing | cli_tools/gce_ovf_import/ovf_utils/ovf_validator.go:55-60 | None exactly when every href is found; otherwise the index of a href not found, all earlier ones being found |
| OvfValidation.ReferencesCheck | cli_tools/gce_ovf_import/ovf_utils/ovf_validator.go:49-62 | nil files pass; otherwise no error exactly when every href is found, and an error names the first missing href and the package path |
| OvfValidation.LookupCount | cli_tools/gce_ovf_import/ovf_utils/ovf_validator.go:55-60 | the number of lookups is all files when all are found, else one past the first missing |
| OvfValidation.ValidateReferencesExistInGcs | cli_tools/gce_ovf_import/ovf_utils/ovf_validator.go:49-62 | the loop returns the specified error and makes exactly the lookups `(packagePath, href)` up to the first missing file, in order, and none for nil files |
| OvfValidation.PackageValidation | cli_tools/gce_ovf_import/ovf_utils/ovf_validator.go:36-47 | a nil descriptor gives NilDescriptor; success exactly when every referenced file is found, returning the same descriptor; an error names a missing href |
| OvfValidation.ValidateOvfPackage | cli_tools/gce_ovf_import/ovf_utils/ovf_validator.go:36-62 | the method returns PackageValidation's answer and makes the lookups the loop specification names |
| OvfValidation.StopsAtFirstMissing | cli_tools/gce_ovf_import/ovf_utils/ovf_validator.go:55-59 | if the file at k is missing and all earlier are found, the error names href k whatever the later files are |
| OvfValidation.ValidateOvfPackageAsWritten | cli_tools/gce_ovf_import/ovf_utils/ovf_validator.go:42 | panics exactly when a descriptor without References is given; otherwise agrees with PackageValidation |
| OvfLoading.Load | cli_tools/gce_ovf_import/ovf_utils/ovf_loader_test.go:50-119 | one lookup of `.ovf` under the path, one read of that handle; a lookup, read or decode error is returned alone and stops the chain; a decoded descriptor always reaches validation with the path, as the third and last call, and the validator's answer is the result |
| OvfLoading.LoadWithPackageValidator | cli_tools/gce_ovf_import/ovf_utils/ovf_loader_test.go:58-65 | with the package validator in place, a successful load returns the validated descriptor, all of whose files exist |
| OvfLoading.SampleLoad | cli_tools/gce_ovf_import/ovf_utils/ovf_loader_test.go:36-66 | the sample descriptor is returned after exactly the find, read and validate calls |
| OvfLoading.SampleDescriptorPanicsAsWritten | cli_tools/gce_ovf_import/ovf_utils/ovf_loader_test.go:36-47 | the validator as written panics on the loader's sample descriptor; the corrected one accepts it unchanged |
| OvfExportDomain.DaisyAttrs | cli_tools/gce_ovf_export/domain/params_test.go:34-45 | project from the set project, zone, GCS path from the scratch bucket, OAuth, compute endpoint, workflow directory, the three log flags and NoExternalIP are copied |
| OvfExportDomain.DaisyAttrsIgnoreExportSource | cli_tools/gce_ovf_export/domain/params_test.go:34-45 | the export source, destination and format do not reach the workflow attributes |
| OvfExportParamValidation.ExportKindSwitch | cli_tools/gce_ovf_export/domain/params_test.go:24-45 | accepted parameters turned into the other kind of export, by clearing one name and setting the other, are of that kind only, stay accepted and give the same workflow attributes |
| OvfExportParamValidation.FieldRuleViolation | cli_tools/gce_ovf_export/exporter/params_validator_test.go:29-206 | no violation exactly when one name is set, the client id is set, the destination is a `gs://` path, and track and format are allowed; both names or neither name give their errors |
| OvfExportParamValidation.ValidateAndParseParams | cli_tools/gce_ovf_export/exporter/params_validator_test.go:61-77 | a field violation is returned without consulting the zone validator; otherwise the zone validator's answer on (project, zone) is returned as it is |
| OvfExportParamValidation.ZoneCheckedLast | cli_tools/gce_ovf_export/exporter/params_validator_test.go:208-218 | parameters breaking a field rule are refused identically whatever the zone validator |
| OvfExportParamValidation.AcceptedParams | cli_tools/gce_ovf_export/exporter/params_validator_test.go:95-139 | accepted parameters satisfy every field rule and their zone was accepted |
| OvfExportParamValidation.RejectedFieldChanges | cli_tools/gce_ovf_export/exporter/params_validator_test.go:29-206 | both names, no name, an empty client id or destination, a non-GCS destination and format "zip" are each refused |
| OvfExportParamValidation.UnknownReleaseTrackRejected | cli_tools/gce_ovf_export/exporter/params_validator_test.go:87-93 | a release track outside ga, beta and alpha is refused |
| OvfExportParamValidation.PopulatedParamsDependOnZoneOnly | cli_tools/gce_ovf_export/exporter/params_validator_test.go:95-139 | fully populated instance or machine-image parameters are exactly as valid as their zone |

## Left out

- The implementation file of package `ovfutils` is not part of this model. Its behaviour is taken from `ovf_utils_test.go`. Treatments those assertions leave open were fixed as follows:
  - a disk item without a Parent is skipped like one with an unknown Parent;
  - a disk item without an AddressOnParent sorts as the empty address;
  - an empty HostResource list is InvalidHostResourceFormat;
  - a VirtualDisk without allocation units is MissingAllocationUnits;
  - id lookups take the first match;
  - `GetDiskInfos` checks the hardware, then the DiskSection, then its disks, then the file list, then the controllers, and returns the first failure;
  - an item without a ResourceType matches no type, so it is never a CPU, memory, controller or disk item;
  - `WithPackagePath` joins the package path and the href by plain concatenation, adding or removing no separator;
  - the unit grammar allows white space before each of `byte`, `*`, `2`, `^` and the exponent, and after the exponent.
  - a hardware section whose controllers have no disk item attached to them (no disk items at all, or only disks on unknown Parents) resolves to an empty disk list, not an error (OvfDisks.NothingAttached);
  - capacity text must be a non-empty run of decimal digits, so signed text such as `+5` or `-5` is InvalidCapacityValue, like any other non-numeric text.
- AllocationUnits.CapacityInGB: MB capacities round up to whole GB. The assertions fit this and `max(1, n / 1024)` alike. The two differ at 0 MB, and at every MB count above 1024 that is not a multiple of 1024.
- OvfDisks.GetDiskInfos: controllers are taken in listing order and addresses are compared as Go strings. The assertions use controller ids 3, 4 and 5 in ascending order and addresses "0" and "1", so they do not separate these from InstanceID order or numeric order.
- OvfHardware.GetNumberOfCPUs and OvfHardware.GetMemoryInMB: a first CPU or memory item without a VirtualQuantity gives NoCPUSpec or NoMemorySpec; a later item of the same type is not consulted. No assertion covers this case.
- The resource-type numbers (CPU 3, memory 4, IDE 5, parallel SCSI 6, disk 17, SATA 20, USB 23) are the CIM values. The Go constants that name them are not part of this model.
- XML decoding is a function value on the loader. A parse error is returned as it is and is not recorded as a collaborator call.
- The storage client and the zone validator are function values. A storage lookup is either a handle or an error, so the loader does not model a lookup that returns neither.
- Error messages are constructors of an error datatype, not formatted text.
- Integers are unbounded. Go's `uint` quantities and the `int` GB result do not wrap.
- `File.Size` is carried as data only.
- OvfExportParamValidation.FieldRuleViolation: the order among the field rules is fixed by the model; the source pins only that all of them come before the zone check. `IsGcsPath` accepts `gs://` followed by a non-empty bucket, so the model accepts bucket-only destinations such as `gs://bucket_name` and `gs://bucket_name/`. No assertion decides whether the source accepts them.
- OvfExportParamValidation.ValidateAndParseParams: the zone validator receives the project as an optional value, where Go passes the project string. How and when the project gets set is not part of this model, so the model does not require it to be set.
- The "AndParse" part of `ValidateAndParseParams` (filling parameters in place) and how the project gets set are not part of this model.
- OvfExportDomain.DaisyAttrs: requires the project to be set, because Go dereferences the pointer. The timeout is kept as a duration rather than its text form `time.Duration.String()`.
- `cli_tools/gce_ovf_export/main.go` is left out: flag parsing, process exit and logging wrappers.
- `cli_tools/gce_ovf_export/exporter/instance_export_cleaner.go` is left out: workflow building and running, and serial-log collection.
- `cli_tools/gce_vm_image_import/importer/importer_test.go` is left out: timeouts, cancellation and cloud collaborators.
- `cli_tools/gce_ovf_export/exporter/instance_disks_exporter_test.go` and `cli_tools/mocks/mock_instance_export_preparer.go` are left out: a fake HTTP server and a generated mock.

## Findings

| source | as written | input that shows it | evidently intended | confidence | as-written member | corrected member |
|---|---|---|---|---|---|---|
| cli_tools/gce_ovf_import/ovf_utils/ovf_validator.go:42 | `ovfDescriptor.References.Files` is read without checking that References is present, so a descriptor without a References section panics | the loader's sample descriptor, which has an Annotation section and no References (`ovf_loader_test.go:39-47`) | a missing References section means nothing to validate, as `validateReferencesExistInGcs` does for nil files (`ovf_validator.go:51-53`), and the descriptor is returned unchanged | not executed | OvfValidation.ValidateOvfPackageAsWritten (exhibited by OvfLoading.SampleDescriptorPanicsAsWritten) | OvfValidation.PackageValidation, OvfValidation.ValidateOvfPackage |

=== FILE: allocation_units.dfy ===
/** Capacity and allocation-unit text of OVF descriptors.  Units use the
    programmatic-unit notation of DMTF DSP0004, Annex C, restricted to
    `byte * 2^<n>`; the resolver recognises n = 20 (MB), 30 (GB) and 40
    (TB), tolerating white space around the tokens (`byte * 2^ 30   `). */
module AllocationUnits {
  import opened Wrappers
  import opened OvfErrors

  predicate IsDigit(c: char) { '0' <= c <= '9' }

  predicate IsSpace(c: char) { c == ' ' || c == '\t' || c == '\n' || c == '\r' }

  predicate AllDigits(s: string) {
    forall i :: 0 <= i < |s| ==> IsDigit(s[i])
  }

  predicate AllSpaces(s: string) {
    forall i :: 0 <= i < |s| ==> IsSpace(s[i])
  }

  function DigitValue(c: char): nat
    requires IsDigit(c)
  {
    c as int - '0' as int
  }

  function DigitChar(d: nat): (c: char)
    requires d < 10
    ensures IsDigit(c) && DigitValue(c) == d
  {
    ('0' as int + d) as char
  }

  /** The value of a string of decimal digits, most significant first. */
  function DecimalValue(s: string): nat
    requires AllDigits(s)
  {
    if s == [] then 0 else DecimalValue(s[..|s| - 1]) * 10 + DigitValue(s[|s| - 1])
  }

  /** The shortest decimal spelling of n. */
  function Decimal(n: nat): (s: string)
    ensures |s| > 0 && AllDigits(s)
  {
    if n < 10 then [DigitChar(n)] else Decimal(n / 10) + [DigitChar(n % 10)]
  }

  lemma {:induction false} DecimalRoundTrip(n: nat)
    ensures DecimalValue(Decimal(n)) == n
  {
    if n >= 10 {
      var s := Decimal(n);
      assert s[..|s| - 1] == Decimal(n / 10);
      DecimalRoundTrip(n / 10);
    }
  }

  function Spaces(k: nat): (s: string)
    ensures |s| == k && AllSpaces(s)
  {
    if k == 0 then [] else [' '] + Spaces(k - 1)
  }

  /** `s` without its leading white space. */
  function SkipSpaces(s: string): (r: string)
    ensures |r| <= |s|
    ensures r == [] || !IsSpace(r[0])
  {
    if s != [] && IsSpace(s[0]) then SkipSpaces(s[1..]) else s
  }

  /** The leading run of digits of `s` and what follows it. */
  function SpanDigits(s: string): (r: (string, string))
    ensures r.0 + r.1 == s && AllDigits(r.0)
    ensures r.1 == [] || !IsDigit(r.1[0])
  {
    if s != [] && IsDigit(s[0]) then
      var (d, rest) := SpanDigits(s[1..]);
      assert [s[0]] + d + rest == s;
      ([s[0]] + d, rest)
    else ([], s)
  }

  /** Consumes optional white space and then the literal `lit`. */
  function Token(lit: string, s: string): (r: Option<string>)
    ensures r.Some? ==> SkipSpaces(s) == lit + r.value
  {
    var t := SkipSpaces(s);
    if lit <= t then Some(t[|lit|..]) else None
  }

  const Recognized: set<nat> := {20, 30, 40}

  /** The exponent n of an allocation-unit text `byte * 2^n`, when n is a
      recognised one. */
  function UnitExponent(units: string): (r: Option<nat>)
    ensures r.Some? ==> r.value in Recognized
  {
    var exponent :- AfterPower(units);
    ExponentValue(exponent)
  }

  /** What follows `byte * 2^` (white space allowed between the tokens). */
  function AfterPower(units: string): Option<string> {
    var a :- Token("byte", units);
    var b :- Token("*", a);
    var c :- Token("2", b);
    Token("^", c)
  }

  /** The exponent text: digits, with white space around them. */
  function ExponentValue(text: string): (r: Option<nat>)
    ensures r.Some? ==> r.value in Recognized
  {
    var (digits, rest) := SpanDigits(SkipSpaces(text));
    if digits != [] && SkipSpaces(rest) == [] && DecimalValue(digits) in Recognized then
      Some(DecimalValue(digits))
    else
      None
  }

  /** Bytes in one unit of a recognised exponent. */
  function UnitBytes(e: nat): nat
    requires e in Recognized
  {
    if e == 20 then 0x10_0000 else if e == 30 then 0x4000_0000 else 0x100_0000_0000
  }

  const GiB: nat := 0x4000_0000
  const MiB: nat := 0x10_0000

  /** Capacity text: a non-empty string of decimal digits. */
  function CapacityValue(capacity: string): (r: Result<nat, Error>)
    ensures r.Ok? <==> capacity != [] && AllDigits(capacity)
    ensures r.Err? ==> r.error == InvalidCapacityValue(capacity)
  {
    if capacity != [] && AllDigits(capacity) then Ok(DecimalValue(capacity))
    else Err(InvalidCapacityValue(capacity))
  }

  /** `getCapacityInGB`: a disk capacity in whole GB.  GB are kept, TB are
      multiplied by 1024 and MB are divided by 1024 rounding up, so a
      positive capacity never becomes 0 GB. */
  function CapacityInGB(capacity: string, units: string): (r: Result<nat, Error>)
    ensures r.Ok? <==> CapacityValue(capacity).Ok? && UnitExponent(units).Some?
    ensures r.Ok? ==>
      var n, e := CapacityValue(capacity).value, UnitExponent(units).value;
      && (e == 30 ==> r.value == n)
      && (e == 40 ==> r.value == n * 1024)
      && (e == 20 ==> r.value * 1024 >= n && (r.value == 0 || (r.value - 1) * 1024 < n))
    ensures CapacityValue(capacity).Err? ==> r == Err(InvalidCapacityValue(capacity))
    ensures CapacityValue(capacity).Ok? && UnitExponent(units).None? ==> r == Err(InvalidAllocationUnits(units))
  {
    var n :- CapacityValue(capacity);
    match UnitExponent(units)
    case None => Err(InvalidAllocationUnits(units))
    case Some(e) =>
      if e == 30 then Ok(n)
      else if e == 40 then Ok(n * 1024)
      else Ok((n + 1023) / 1024)
  }

  /** A memory quantity in MB: MB are kept, GB multiplied by 1024 and TB by
      1024 * 1024. */
  function MemoryInMB(quantity: nat, units: string): (r: Result<nat, Error>)
    ensures r.Ok? <==> UnitExponent(units).Some?
    ensures r.Ok? ==> r.value * MiB == quantity * UnitBytes(UnitExponent(units).value)
    ensures r.Err? ==> r.error == InvalidAllocationUnits(units)
  {
    match UnitExponent(units)
    case None => Err(InvalidAllocationUnits(units))
    case Some(e) =>
      if e == 20 then Ok(quantity)
      else if e == 30 then Ok(quantity * 1024)
      else Ok(quantity * 1024 * 1024)
  }

  /** The size in bytes never shrinks when a capacity is converted to GB,
      and it grows by less than one GB. */
  lemma CapacityInGBBytes(capacity: string, units: string)
    requires CapacityInGB(capacity, units).Ok?
    ensures var n, e, r := CapacityValue(capacity).value, UnitExponent(units).value, CapacityInGB(capacity, units).value;
      r * GiB >= n * UnitBytes(e) && r * GiB < n * UnitBytes(e) + GiB
  {
    var n, e, r := CapacityValue(capacity).value, UnitExponent(units).value, CapacityInGB(capacity, units).value;
    if e == 20 {
      assert r * 1024 >= n;
      ScaleBy(r * 1024, n, MiB);
      assert r * GiB == (r * 1024) * MiB;
      if r > 0 {
        assert (r - 1) * 1024 < n;
        ScaleBy(n, (r - 1) * 1024 + 1, MiB);
        assert ((r - 1) * 1024 + 1) * MiB <= r * GiB;
      }
    }
  }

  lemma ScaleBy(a: nat, b: nat, k: nat)
    requires a >= b
    ensures a * k >= b * k
  {
  }

  /** White space before a string is skipped. */
  lemma {:induction false} SkipLeadingSpaces(pre: string, t: string)
    requires AllSpaces(pre)
    ensures SkipSpaces(pre + t) == SkipSpaces(t)
  {
    if pre != [] {
      var s := pre + t;
      assert s[0] == pre[0] && IsSpace(s[0]);
      assert s[1..] == pre[1..] + t;
      SkipLeadingSpaces(pre[1..], t);
    } else {
      assert pre + t == t;
    }
  }

  /** A literal that does not start with white space is consumed as a token
      after any white space. */
  lemma TokenAfterSpaces(pre: string, lit: string, rest: string)
    requires AllSpaces(pre) && lit != [] && !IsSpace(lit[0])
    ensures Token(lit, pre + (lit + rest)) == Some(rest)
  {
    SkipLeadingSpaces(pre, lit + rest);
    assert (lit + rest)[0] == lit[0];
    assert (lit + rest)[|lit|..] == rest;
  }

  lemma {:induction false} SpanOfDigits(d: string, rest: string)
    requires AllDigits(d)
    requires rest == [] || !IsDigit(rest[0])
    ensures SpanDigits(d + rest) == (d, rest)
  {
    if d != [] {
      var s := d + rest;
      assert s[0] == d[0] && IsDigit(s[0]);
      assert s[1..] == d[1..] + rest;
      SpanOfDigits(d[1..], rest);
      assert [d[0]] + d[1..] == d;
    } else {
      assert d + rest == rest;
    }
  }

  /** `byte * 2^n`, with any white space in front of the exponent and after
      it, denotes exponent n when n is recognised, and nothing otherwise. */
  lemma UnitExponentOfFormatted(n: nat, mid: nat, trailing: nat)
    ensures UnitExponent("byte * 2^" + Spaces(mid) + Decimal(n) + Spaces(trailing))
         == if n in Recognized then Some(n) else None
  {
    var exponent := Spaces(mid) + (Decimal(n) + Spaces(trailing));
    assert "byte * 2^" + Spaces(mid) + Decimal(n) + Spaces(trailing) == "byte * 2^" + exponent;
    AfterPowerOf(exponent);
    ExponentValueOf(n, mid, trailing);
  }

  lemma AfterPowerOf(exponent: string)
    ensures AfterPower("byte * 2^" + exponent) == Some(exponent)
  {
    var r3 := "^" + exponent;
    var r2 := " " + ("2" + r3);
    var r1 := " " + ("*" + r2);
    assert "byte * 2^" + exponent == [] + ("byte" + r1);
    TokenAfterSpaces([], "byte", r1);
    TokenAfterSpaces(" ", "*", r2);
    TokenAfterSpaces(" ", "2", r3);
    assert r3 == [] + ("^" + exponent);
    TokenAfterSpaces([], "^", exponent);
  }

  lemma ExponentValueOf(n: nat, mid: nat, trailing: nat)
    ensures ExponentValue(Spaces(mid) + (Decimal(n) + Spaces(trailing)))
         == if n in Recognized then Some(n) else None
  {
    var digits, tail := Decimal(n), Spaces(trailing);
    SkipLeadingSpaces(Spaces(mid), digits + tail);
    assert SkipSpaces(digits + tail) == digits + tail;
    SpanOfDigits(digits, tail);
    SkipLeadingSpaces(tail, []);
    assert tail + [] == tail;
    DecimalRoundTrip(n);
  }

  /** Decimal text of a number is a valid capacity with that value. */
  lemma CapacityOfDecimal(n: nat)
    ensures CapacityValue(Decimal(n)) == Ok(n)
  {
    DecimalRoundTrip(n);
  }

  /** Texts that name no recognised unit are rejected. */
  lemma RejectedUnits()
    ensures UnitExponent("") == None
    ensures UnitExponent("NOT_VALID_ALLOCATION_UNIT") == None
    ensures UnitExponent("hertz * 10^6") == None
  {
  }

  /** The three unit texts written without white space. */
  lemma MegabyteUnits()
    ensures UnitExponent("byte * 2^20") == Some(20)
  {
    UnitExponentOfFormatted(20, 0, 0);
    assert Decimal(20) == "20";
    assert "byte * 2^" + Spaces(0) + "20" + Spaces(0) == "byte * 2^20";
  }

  lemma GigabyteUnits()
    ensures UnitExponent("byte * 2^30") == Some(30)
  {
    UnitExponentOfFormatted(30, 0, 0);
    assert Decimal(30) == "30";
    assert "byte * 2^" + Spaces(0) + "30" + Spaces(0) == "byte * 2^30";
  }

  lemma TerabyteUnits()
    ensures UnitExponent("byte * 2^40") == Some(40)
  {
    UnitExponentOfFormatted(40, 0, 0);
    assert Decimal(40) == "40";
    assert "byte * 2^" + Spaces(0) + "40" + Spaces(0) == "byte * 2^40";
  }

  /** White space after the caret and after the exponent is accepted. */
  lemma SpacedGigabyteUnits()
    ensures UnitExponent("byte * 2^ 30   ") == Some(30)
  {
    UnitExponentOfFormatted(30, 1, 3);
    assert Decimal(30) == "30";
    assert "byte * 2^" + Spaces(1) + "30" + Spaces(3) == "byte * 2^ 30   ";
  }

  /** One more digit on the right. */
  lemma DecimalStep(n: nat, d: nat)
    requires 1 <= n && d < 10
    ensures Decimal(n * 10 + d) == Decimal(n) + [DigitChar(d)]
  {
    assert (n * 10 + d) / 10 == n && (n * 10 + d) % 10 == d;
  }

  lemma DecimalSpellings()
    ensures Decimal(1) == "1" && Decimal(11) == "11" && Decimal(12) == "12" && Decimal(20) == "20"
    ensures Decimal(10) == "10" && Decimal(1024) == "1024"
  {
    DecimalStep(1, 1);
    DecimalStep(1, 2);
    DecimalStep(2, 0);
    DecimalStep(1, 0);
    DecimalStep(10, 2);
    DecimalStep(102, 4);
  }

  lemma DecimalOf5242880()
    ensures Decimal(5242880) == "5242880"
  {
    DecimalStep(5, 2);
    DecimalStep(52, 4);
    DecimalStep(524, 2);
    DecimalStep(5242, 8);
    DecimalStep(52428, 8);
    DecimalStep(524288, 0);
  }

  lemma MegabyteCapacity(n: nat, text: string, size: nat)
    requires Decimal(n) == text && size == (n + 1023) / 1024
    ensures CapacityInGB(text, "byte * 2^20") == Ok(size)
  {
    MegabyteUnits();
    CapacityOfDecimal(n);
  }

  /** Capacities in MB round up to whole GB. */
  lemma MegabyteCapacities()
    ensures CapacityInGB("1", "byte * 2^20") == Ok(1)
    ensures CapacityInGB("1024", "byte * 2^20") == Ok(1)
    ensures CapacityInGB("5242880", "byte * 2^20") == Ok(5 * 1024)
  {
    DecimalSpellings();
    DecimalOf5242880();
    MegabyteCapacity(1, "1", 1);
    MegabyteCapacity(1024, "1024", 1);
    MegabyteCapacity(5242880, "5242880", 5 * 1024);
  }

  lemma GigabyteCapacity(n: nat, text: string)
    requires Decimal(n) == text
    ensures CapacityInGB(text, "byte * 2^30") == Ok(n)
  {
    GigabyteUnits();
    CapacityOfDecimal(n);
  }

  lemma GigabyteCapacities()
    ensures CapacityInGB("20", "byte * 2^30") == Ok(20)
    ensures CapacityInGB("10", "byte * 2^30") == Ok(10)
    ensures CapacityInGB("1", "byte * 2^30") == Ok(1)
    ensures CapacityInGB("1024", "byte * 2^30") == Ok(1024)
    ensures CapacityInGB("5242880", "byte * 2^30") == Ok(5242880)
  {
    DecimalSpellings();
    DecimalOf5242880();
    GigabyteCapacity(20, "20");
    GigabyteCapacity(10, "10");
    GigabyteCapacity(1, "1");
    GigabyteCapacity(1024, "1024");
    GigabyteCapacity(5242880, "5242880");
  }

  /** White space around the exponent changes nothing. */
  lemma SpacedGigabyteCapacity(n: nat, text: string)
    requires Decimal(n) == text
    ensures CapacityInGB(text, "byte * 2^ 30   ") == Ok(n)
  {
    SpacedGigabyteUnits();
    CapacityOfDecimal(n);
  }

  lemma SpacedGigabyteCapacities()
    ensures CapacityInGB("11", "byte * 2^ 30   ") == Ok(11)
    ensures CapacityInGB("12", "byte * 2^ 30   ") == Ok(12)
  {
    DecimalSpellings();
    SpacedGigabyteCapacity(11, "11");
    SpacedGigabyteCapacity(12, "12");
  }

  lemma TerabyteCapacity(n: nat, text: string)
    requires Decimal(n) == text
    ensures CapacityInGB(text, "byte * 2^40") == Ok(n * 1024)
  {
    TerabyteUnits();
    CapacityOfDecimal(n);
  }

  lemma TerabyteCapacities()
    ensures CapacityInGB("1", "byte * 2^40") == Ok(1024)
    ensures CapacityInGB("5242880", "byte * 2^40") == Ok(5242880 * 1024)
  {
    DecimalSpellings();
    DecimalOf5242880();
    TerabyteCapacity(1, "1");
    TerabyteCapacity(5242880, "5242880");
  }

  /** Memory sizes: 16 MB, 7 GB, 3 GB with spaced units, and 5 TB. */
  lemma MemoryExamples()
    ensures MemoryInMB(16, "byte * 2^20") == Ok(16)
    ensures MemoryInMB(7, "byte * 2^30") == Ok(7 * 1024)
    ensures MemoryInMB(3, "byte * 2^ 30   ") == Ok(3 * 1024)
    ensures MemoryInMB(5, "byte * 2^40") == Ok(5 * 1024 * 1024)
  {
    MegabyteUnits();
    GigabyteUnits();
    SpacedGigabyteUnits();
    TerabyteUnits();
  }
}

=== FILE: export_params.dfy ===
/** The parameters of an OVF export, and the workflow attributes they are
    turned into for the workflow engine. */
module OvfExportDomain {
  import opened Wrappers

  /** Go's `time.Duration`: a count of nanoseconds. */
  datatype Duration = Duration(nanoseconds: int)

  /** `OVFExportParams`: what the user asked to export, where to, and how
      the workflow runs.  The project is a pointer in Go. */
  datatype OVFExportParams = OVFExportParams(
    instanceName: string,
    machineImageName: string,
    clientId: string,
    destinationUri: string,
    ovfFormat: string,
    diskExportFormat: string,
    network: string,
    subnet: string,
    noExternalIp: bool,
    osId: string,
    zone: string,
    timeout: Duration,
    project: Option<string>,
    scratchBucketGcsPath: string,
    oauth: string,
    ce: string,
    gcsLogsDisabled: bool,
    cloudLogsDisabled: bool,
    stdoutLogsDisabled: bool,
    releaseTrack: string,
    buildId: string,
    workflowDir: string)

  /** An instance is being exported. */
  predicate IsInstanceExport(p: OVFExportParams) {
    p.instanceName != ""
  }

  /** A machine image is being exported. */
  predicate IsMachineImageExport(p: OVFExportParams) {
    p.machineImageName != ""
  }

  /** The attributes a workflow run is configured with.  The timeout is
      kept as the duration; Go passes on its textual form. */
  datatype WorkflowAttributes = WorkflowAttributes(
    project: string,
    zone: string,
    gcsPath: string,
    oauth: string,
    timeout: Duration,
    computeEndpoint: string,
    workflowDirectory: string,
    disableGcsLogs: bool,
    disableCloudLogs: bool,
    disableStdoutLogs: bool,
    noExternalIp: bool)

  /** `DaisyAttrs`: the project pointer is followed, so it must be set. */
  function DaisyAttrs(p: OVFExportParams): (a: WorkflowAttributes)
    requires p.project.Some?
    ensures a.project == p.project.value && a.zone == p.zone
    ensures a.gcsPath == p.scratchBucketGcsPath && a.oauth == p.oauth
    ensures a.timeout == p.timeout && a.computeEndpoint == p.ce
    ensures a.workflowDirectory == p.workflowDir
    ensures a.disableGcsLogs == p.gcsLogsDisabled && a.disableCloudLogs == p.cloudLogsDisabled
    ensures a.disableStdoutLogs == p.stdoutLogsDisabled && a.noExternalIp == p.noExternalIp
  {
    WorkflowAttributes(
      p.project.value, p.zone, p.scratchBucketGcsPath, p.oauth, p.timeout, p.ce,
      p.workflowDir, p.gcsLogsDisabled, p.cloudLogsDisabled, p.stdoutLogsDisabled, p.noExternalIp)
  }

  /** What the export is of does not reach the workflow attributes: two
      parameter sets that differ only in the source being exported, its
      destination and its format configure the workflow identically. */
  lemma DaisyAttrsIgnoreExportSource(p: OVFExportParams, instanceName: string, machineImageName: string,
                                     destinationUri: string, ovfFormat: string)
    requires p.project.Some?
    ensures DaisyAttrs(p.(instanceName := instanceName, machineImageName := machineImageName,
                          destinationUri := destinationUri, ovfFormat := ovfFormat))
         == DaisyAttrs(p)
  {
  }
}

=== FILE: export_params_validator.dfy ===
/** Validation of OVF export parameters: rules on the fields of the
    parameters, followed by a check of the zone against the project, which
    is a collaborator. */
module OvfExportParamValidation {
  import opened Wrappers
  import opened OvfExportDomain

  datatype ParamError =
    | InstanceAndMachineImageBothSet
    | NoExportSource
    | MissingClientId
    | MissingDestinationUri
    | DestinationNotGcsPath(uri: string)
    | InvalidReleaseTrack(releaseTrack: string)
    | InvalidOvfFormat(ovfFormat: string)
    // what the zone validator reported, passed on verbatim
    | ZoneError(message: string)

  /** The release tracks of the export tool. */
  const GA := "ga"
  const Beta := "beta"
  const Alpha := "alpha"

  /** The OVF formats the exporter produces; empty selects the default. */
  const OvfFormats: set<string> := {"", "ovf", "ova"}

  const GcsScheme := "gs://"

  /** A Cloud Storage URI: the `gs://` scheme followed by a bucket name. */
  predicate IsGcsPath(uri: string) {
    |uri| > |GcsScheme| && uri[..|GcsScheme|] == GcsScheme && uri[|GcsScheme|] != '/'
  }

  /** The validator and the collaborators it holds. */
  datatype ParamValidator = ParamValidator(
    validReleaseTracks: seq<string>,
    zoneValid: (Option<string>, string) -> Option<ParamError>)

  /** The first field rule the parameters break, if any. */
  function FieldRuleViolation(validReleaseTracks: seq<string>, p: OVFExportParams): (r: Option<ParamError>)
    ensures r.None? <==>
      && (IsInstanceExport(p) != IsMachineImageExport(p))
      && p.clientId != ""
      && IsGcsPath(p.destinationUri)
      && p.releaseTrack in validReleaseTracks
      && p.ovfFormat in OvfFormats
    ensures IsInstanceExport(p) && IsMachineImageExport(p) ==> r == Some(InstanceAndMachineImageBothSet)
    ensures !IsInstanceExport(p) && !IsMachineImageExport(p) ==> r == Some(NoExportSource)
  {
    if IsInstanceExport(p) && IsMachineImageExport(p) then Some(InstanceAndMachineImageBothSet)
    else if !IsInstanceExport(p) && !IsMachineImageExport(p) then Some(NoExportSource)
    else if p.clientId == "" then Some(MissingClientId)
    else if p.destinationUri == "" then Some(MissingDestinationUri)
    else if !IsGcsPath(p.destinationUri) then Some(DestinationNotGcsPath(p.destinationUri))
    else if p.releaseTrack !in validReleaseTracks then Some(InvalidReleaseTrack(p.releaseTrack))
    else if p.ovfFormat !in OvfFormats then Some(InvalidOvfFormat(p.ovfFormat))
    else None
  }

  /** `ValidateAndParseParams`: the field rules first; only parameters
      that pass them reach the zone validator, whose answer is returned
      as it is. */
  function ValidateAndParseParams(validator: ParamValidator, p: OVFExportParams): (r: Option<ParamError>)
    ensures FieldRuleViolation(validator.validReleaseTracks, p).Some? ==>
      r == FieldRuleViolation(validator.validReleaseTracks, p)
    ensures FieldRuleViolation(validator.validReleaseTracks, p).None? ==>
      r == validator.zoneValid(p.project, p.zone)
  {
    var violation := FieldRuleViolation(validator.validReleaseTracks, p);
    if violation.Some? then violation else validator.zoneValid(p.project, p.zone)
  }

  /** Parameters that break a field rule are refused whatever the zone
      validator would say: it is not consulted. */
  lemma ZoneCheckedLast(v1: ParamValidator, v2: ParamValidator, p: OVFExportParams)
    requires v1.validReleaseTracks == v2.validReleaseTracks
    requires FieldRuleViolation(v1.validReleaseTracks, p).Some?
    ensures ValidateAndParseParams(v1, p) == ValidateAndParseParams(v2, p)
    ensures ValidateAndParseParams(v1, p).Some?
  {
  }

  /** Accepted parameters name exactly one thing to export, have a client
      id, a Cloud Storage destination, a known release track and format,
      and a zone the zone validator accepts. */
  lemma AcceptedParams(validator: ParamValidator, p: OVFExportParams)
    requires ValidateAndParseParams(validator, p).None?
    ensures IsInstanceExport(p) <==> !IsMachineImageExport(p)
    ensures p.clientId != "" && p.destinationUri != "" && IsGcsPath(p.destinationUri)
    ensures p.releaseTrack in validator.validReleaseTracks && p.ovfFormat in OvfFormats
    ensures validator.zoneValid(p.project, p.zone).None?
  {
  }

  /** Each single-field change the export refuses whatever the zone:
      a second name, a missing name, client id or destination, a
      destination outside Cloud Storage, an unknown release track, or an
      unknown format. */
  lemma RejectedFieldChanges(validator: ParamValidator, p: OVFExportParams)
    requires IsInstanceExport(p) || IsMachineImageExport(p)
    ensures ValidateAndParseParams(validator, p.(instanceName := "i", machineImageName := "m")).Some?
    ensures ValidateAndParseParams(validator, p.(instanceName := "", machineImageName := "")).Some?
    ensures ValidateAndParseParams(validator, p.(clientId := "")).Some?
    ensures ValidateAndParseParams(validator, p.(destinationUri := "")).Some?
    ensures ValidateAndParseParams(validator, p.(destinationUri := "NOT_GCS_PATH")).Some?
    ensures ValidateAndParseParams(validator, p.(ovfFormat := "zip")).Some?
  {
    assert "NOT_GCS_PATH"[..|GcsScheme|] != GcsScheme by {
      assert "NOT_GCS_PATH"[0] != GcsScheme[0];
    }
    assert "zip" !in OvfFormats;
  }

  /** With the tool's release tracks, a track outside them is refused. */
  lemma UnknownReleaseTrackRejected(zoneValid: (Option<string>, string) -> Option<ParamError>, p: OVFExportParams)
    requires p.releaseTrack !in {GA, Beta, Alpha}
    ensures ValidateAndParseParams(ParamValidator([GA, Beta, Alpha], zoneValid), p).Some?
  {
  }

  /** Fully populated instance-export and machine-image-export parameters
      are exactly as valid as their zone. */
  lemma PopulatedParamsDependOnZoneOnly(validator: ParamValidator, p: OVFExportParams)
    requires (p.instanceName != "") != (p.machineImageName != "")
    requires p.clientId != "" && IsGcsPath(p.destinationUri)
    requires p.releaseTrack in validator.validReleaseTracks && p.ovfFormat in OvfFormats
    ensures ValidateAndParseParams(validator, p) == validator.zoneValid(p.project, p.zone)
  {
  }

  /** The kind of export is the name that is set, and nothing else about
      accepted parameters depends on it: turning them into the other kind,
      by clearing the one name and setting the other, keeps them accepted
      and configures the workflow identically. */
  lemma ExportKindSwitch(validator: ParamValidator, p: OVFExportParams, name: string)
    requires ValidateAndParseParams(validator, p).None?
    requires name != ""
    ensures var q := p.(instanceName := "", machineImageName := name);
      && IsMachineImageExport(q) && !IsInstanceExport(q)
      && ValidateAndParseParams(validator, q).None?
      && (p.project.Some? ==> DaisyAttrs(q) == DaisyAttrs(p))
    ensures var q := p.(instanceName := name, machineImageName := "");
      && IsInstanceExport(q) && !IsMachineImageExport(q)
      && ValidateAndParseParams(validator, q).None?
      && (p.project.Some? ==> DaisyAttrs(q) == DaisyAttrs(p))
  {
  }
}

=== FILE: ovf_disk_scenarios.dfy ===
/** Worked descriptors: a SATA, a USB and a parallel SCSI controller, two
    disk items, and a DiskSection and References section naming two disk
    files.  The lemmas state what the resolver makes of them. */
module OvfDiskScenarios {
  import opened Wrappers
  import opened OvfErrors
  import opened OvfModel
  import opened OvfHardware
  import opened OvfDisks
  import opened OvfPackage
  import AllocationUnits

  function ControllerItem(instanceId: string, resourceType: uint16): Item {
    ResourceAllocationSettingData(Some(resourceType), None, instanceId, None, [], None, None, None, "")
  }

  function DiskItem(instanceId: string, address: string, elementName: string,
                    hostResource: string, parent: string): Item {
    ResourceAllocationSettingData(Some(Disk), Some(parent), instanceId, Some(address), [hostResource],
                                  None, None, None, elementName)
  }

  const GbUnits := "byte * 2^30"
  const SpacedGbUnits := "byte * 2^ 30   "
  const Href1 := "Ubuntu_for_Horizon71_1_1.0-disk1.vmdk"
  const Href2 := "Ubuntu_for_Horizon71_1_1.0-disk2.vmdk"

  const DefaultDisks := [
    VirtualDisk("vmdisk1", Some("file1"), "20", Some(GbUnits)),
    VirtualDisk("vmdisk2", Some("file2"), "1", Some(GbUnits))]
  const DefaultFiles := [
    File("file1", Href1, 1151322112),
    File("file2", Href2, 68096)]
  const DefaultDiskInfos := [DiskInfo(Href1, 20), DiskInfo(Href2, 1)]

  const Sata := ControllerItem("3", SataController)
  const Usb := ControllerItem("4", UsbController)
  const Scsi := ControllerItem("5", ParallelScsiController)

  // Stepping through the resolver ------------------------------------------

  /** A controller with no disks adds nothing to the order. */
  lemma OrderSkipsEmpty(c: Item, controllers: seq<Item>, diskItems: seq<Item>)
    requires Seqs.Filter(diskItems, OnControllerFilter(c.instanceId)) == []
    ensures ResolutionOrder([c] + controllers, diskItems) == ResolutionOrder(controllers, diskItems)
  {
    assert ([c] + controllers)[1..] == controllers;
  }

  lemma OrderCons(c: Item, controllers: seq<Item>, diskItems: seq<Item>)
    ensures ResolutionOrder([c] + controllers, diskItems)
         == SortByAddress(Seqs.Filter(diskItems, OnControllerFilter(c.instanceId)))
          + ResolutionOrder(controllers, diskItems)
  {
    assert ([c] + controllers)[1..] == controllers;
  }

  lemma OrderLast(c: Item, diskItems: seq<Item>)
    ensures ResolutionOrder([c], diskItems) == SortByAddress(Seqs.Filter(diskItems, OnControllerFilter(c.instanceId)))
  {
    assert [c][1..] == [];
  }

  lemma SortTwo(x: Item, y: Item)
    requires !StringOrder.LessEq(AddressKey(x), AddressKey(y))
    ensures SortByAddress([x, y]) == [y, x]
  {
    assert [x, y][1..] == [y];
    assert SortByAddress([y]) == [y];
    assert InsertByAddress(x, [y]) == [y] + InsertByAddress(x, []);
  }

  lemma SortOne(x: Item)
    ensures SortByAddress([x]) == [x]
  {
  }

  lemma FilterPair(a: Item, b: Item, f: Item -> bool)
    ensures Seqs.Filter([a, b], f) == (if f(a) then [a] else []) + (if f(b) then [b] else [])
  {
    assert [a, b][1..] == [b];
    assert [b][1..] == [];
  }

  lemma ResolveCons(a: Item, rest: seq<Item>, disks: seq<VirtualDisk>, files: seq<File>)
    ensures ResolveAll([a] + rest, disks, files)
         == match ResolveDisk(a, disks, files)
            case Err(e) => Err(e)
            case Ok(ra) =>
              match ResolveAll(rest, disks, files)
              case Err(e) => Err(e)
              case Ok(tail) => Ok([ra] + tail)
  {
    assert ([a] + rest)[1..] == rest;
  }

  lemma ResolveTwo(a: Item, b: Item, disks: seq<VirtualDisk>, files: seq<File>, ra: DiskInfo, rb: DiskInfo)
    requires ResolveDisk(a, disks, files) == Ok(ra) && ResolveDisk(b, disks, files) == Ok(rb)
    ensures ResolveAll([a, b], disks, files) == Ok([ra, rb])
  {
    ResolveCons(b, [], disks, files);
    assert [b] + [] == [b];
    assert ResolveAll([], disks, files) == Ok([]);
    assert [rb] + [] == [rb];
    ResolveCons(a, [b], disks, files);
    assert [a] + [b] == [a, b];
    assert [ra] + [rb] == [ra, rb];
  }

  lemma ResolveSecondFails(a: Item, b: Item, disks: seq<VirtualDisk>, files: seq<File>, ra: DiskInfo, e: Error)
    requires ResolveDisk(a, disks, files) == Ok(ra) && ResolveDisk(b, disks, files) == Err(e)
    ensures ResolveAll([a, b], disks, files) == Err(e)
  {
    ResolveCons(b, [], disks, files);
    assert [b] + [] == [b];
    ResolveCons(a, [b], disks, files);
    assert [a] + [b] == [a, b];
  }

  lemma ResolveFirstFails(a: Item, b: Item, disks: seq<VirtualDisk>, files: seq<File>, e: Error)
    requires ResolveDisk(a, disks, files) == Err(e)
    ensures ResolveAll([a, b], disks, files) == Err(e)
  {
    ResolveCons(a, [b], disks, files);
    assert [a] + [b] == [a, b];
  }

  // Resolving single disk items against the default sections ----------------

  lemma ResolvesToFile1(item: Item, disks: seq<VirtualDisk>, files: seq<File>,
                        capacity: string, units: string, size: nat)
    requires item.hostResource == ["ovf:/disk/vmdisk1"]
    requires |disks| == 2 && disks[0] == VirtualDisk("vmdisk1", Some("file1"), capacity, Some(units))
    requires |files| > 0 && files[0] == DefaultFiles[0]
    requires AllocationUnits.CapacityInGB(capacity, units) == Ok(size)
    ensures ResolveDisk(item, disks, files) == Ok(DiskInfo(Href1, size))
  {
    assert HostResourceDiskId(item) == Ok("vmdisk1");
    assert FindDisk(disks, "vmdisk1") == Some(disks[0]);
    assert FindFile(files, "file1") == Some(files[0]);
  }

  lemma ResolvesToFile2(item: Item, disks: seq<VirtualDisk>, capacity: string, units: string, size: nat)
    requires item.hostResource == ["ovf:/disk/vmdisk2"]
    requires |disks| == 2 && disks[0].diskId == "vmdisk1"
    requires disks[1] == VirtualDisk("vmdisk2", Some("file2"), capacity, Some(units))
    requires AllocationUnits.CapacityInGB(capacity, units) == Ok(size)
    ensures ResolveDisk(item, disks, DefaultFiles) == Ok(DiskInfo(Href2, size))
  {
    assert HostResourceDiskId(item) == Ok("vmdisk2");
    assert disks[1..][0] == disks[1];
    assert FindDisk(disks, "vmdisk2") == Some(disks[1]);
    assert DefaultFiles[1..][0] == DefaultFiles[1];
    assert FindFile(DefaultFiles, "file2") == Some(DefaultFiles[1]);
  }

  lemma DefaultDisksResolve(first: Item, second: Item)
    requires first.hostResource == ["ovf:/disk/vmdisk1"] && second.hostResource == ["ovf:/disk/vmdisk2"]
    ensures ResolveAll([first, second], DefaultDisks, DefaultFiles) == Ok(DefaultDiskInfos)
  {
    AllocationUnits.GigabyteCapacities();
    ResolvesToFile1(first, DefaultDisks, DefaultFiles, "20", GbUnits, 20);
    ResolvesToFile2(second, DefaultDisks, "1", GbUnits, 1);
    ResolveTwo(first, second, DefaultDisks, DefaultFiles, DiskInfo(Href1, 20), DiskInfo(Href2, 1));
  }

  // The scenarios ------------------------------------------------------------

  const SingleControllerDisks := [
    DiskItem("7", "1", "disk1", "ovf:/disk/vmdisk2", "5"),
    DiskItem("6", "0", "disk0", "ovf:/disk/vmdisk1", "5")]

  /** The controllers and disk items of a section that lists its
      controllers first. */
  lemma SplitItems(controllers: seq<Item>, disks: seq<Item>)
    requires forall i :: 0 <= i < |controllers| ==> IsController(controllers[i]) && !IsDiskItem(controllers[i])
    requires forall i :: 0 <= i < |disks| ==> IsDiskItem(disks[i])
    ensures ControllersOf(controllers + disks) == controllers
    ensures DiskItemsOf(controllers + disks) == disks
  {
    ControllersFirst(controllers, disks);
    DiskItemsLast(controllers, disks);
  }

  lemma ControllersFirst(controllers: seq<Item>, disks: seq<Item>)
    requires forall i :: 0 <= i < |controllers| ==> IsController(controllers[i])
    requires forall i :: 0 <= i < |disks| ==> IsDiskItem(disks[i])
    ensures ControllersOf(controllers + disks) == controllers
  {
    Seqs.FilterConcat(controllers, disks, IsController);
    Seqs.FilterAll(controllers, IsController);
    Seqs.FilterNone(disks, IsController);
  }

  lemma DiskItemsLast(controllers: seq<Item>, disks: seq<Item>)
    requires forall i :: 0 <= i < |controllers| ==> !IsDiskItem(controllers[i])
    requires forall i :: 0 <= i < |disks| ==> IsDiskItem(disks[i])
    ensures DiskItemsOf(controllers + disks) == disks
  {
    Seqs.FilterConcat(controllers, disks, IsDiskItem);
    Seqs.FilterNone(controllers, IsDiskItem);
    Seqs.FilterAll(disks, IsDiskItem);
  }

  lemma SingleControllerOrder()
    ensures DiskResolutionOrder([Sata, Usb, Scsi] + SingleControllerDisks)
         == [SingleControllerDisks[1], SingleControllerDisks[0]]
  {
    var disks := SingleControllerDisks;
    SplitItems([Sata, Usb, Scsi], disks);
    assert !StringOrder.LessEq(AddressKey(disks[0]), AddressKey(disks[1]));
    SingleControllerHead(disks[0], disks[1]);
  }

  lemma SingleControllerHead(later: Item, earlier: Item)
    requires later.parent == Some("5") && earlier.parent == Some("5")
    requires !StringOrder.LessEq(AddressKey(later), AddressKey(earlier))
    ensures ResolutionOrder([Sata, Usb, Scsi], [later, earlier]) == [earlier, later]
  {
    SingleControllerTail(later, earlier);
    FilterPair(later, earlier, OnControllerFilter("3"));
    OrderSkipsEmpty(Sata, [Usb, Scsi], [later, earlier]);
    assert [Sata] + [Usb, Scsi] == [Sata, Usb, Scsi];
  }

  lemma SingleControllerTail(later: Item, earlier: Item)
    requires later.parent == Some("5") && earlier.parent == Some("5")
    requires !StringOrder.LessEq(AddressKey(later), AddressKey(earlier))
    ensures ResolutionOrder([Usb, Scsi], [later, earlier]) == [earlier, later]
  {
    ScsiOrder(later, earlier);
    FilterPair(later, earlier, OnControllerFilter("4"));
    OrderSkipsEmpty(Usb, [Scsi], [later, earlier]);
    assert [Usb] + [Scsi] == [Usb, Scsi];
  }

  /** Two disks of the SCSI controller, by address. */
  lemma ScsiOrder(later: Item, earlier: Item)
    requires later.parent == Some("5") && earlier.parent == Some("5")
    requires !StringOrder.LessEq(AddressKey(later), AddressKey(earlier))
    ensures ResolutionOrder([Scsi], [later, earlier]) == [earlier, later]
  {
    FilterPair(later, earlier, OnControllerFilter("5"));
    SortTwo(later, earlier);
    OrderLast(Scsi, [later, earlier]);
  }

  /** Two disks on one controller, listed out of address order, come out in
      address order. */
  lemma DisksOnSingleControllerOutOfOrder()
    ensures GetDiskInfos(Some(VirtualHardwareSection([Sata, Usb, Scsi] + SingleControllerDisks)),
                         Some(DiskSection(Section(None, ""), Some(DefaultDisks))), Some(DefaultFiles))
         == Ok(DefaultDiskInfos)
  {
    var items := [Sata, Usb, Scsi] + SingleControllerDisks;
    SplitItems([Sata, Usb, Scsi], SingleControllerDisks);
    SingleControllerOrder();
    DefaultDisksResolve(SingleControllerDisks[1], SingleControllerDisks[0]);
  }

  const SpacedDisks := [
    VirtualDisk("vmdisk1", Some("file1"), "11", Some(SpacedGbUnits)),
    VirtualDisk("vmdisk2", Some("file2"), "12", Some(SpacedGbUnits))]

  lemma SpacedDisksResolve(first: Item, second: Item)
    requires first.hostResource == ["ovf:/disk/vmdisk1"] && second.hostResource == ["ovf:/disk/vmdisk2"]
    ensures ResolveAll([first, second], SpacedDisks, DefaultFiles) == Ok([DiskInfo(Href1, 11), DiskInfo(Href2, 12)])
  {
    AllocationUnits.SpacedGigabyteCapacities();
    ResolvesToFile1(first, SpacedDisks, DefaultFiles, "11", SpacedGbUnits, 11);
    ResolvesToFile2(second, SpacedDisks, "12", SpacedGbUnits, 12);
    ResolveTwo(first, second, SpacedDisks, DefaultFiles, DiskInfo(Href1, 11), DiskInfo(Href2, 12));
  }

  /** Units with white space around the exponent resolve like plain GB. */
  lemma AllocationUnitExtraSpace()
    ensures GetDiskInfos(Some(VirtualHardwareSection([Sata, Usb, Scsi] + SingleControllerDisks)),
                         Some(DiskSection(Section(None, ""), Some(SpacedDisks))), Some(DefaultFiles))
         == Ok([DiskInfo(Href1, 11), DiskInfo(Href2, 12)])
  {
    var items := [Sata, Usb, Scsi] + SingleControllerDisks;
    SplitItems([Sata, Usb, Scsi], SingleControllerDisks);
    SingleControllerOrder();
    SpacedDisksResolve(SingleControllerDisks[1], SingleControllerDisks[0]);
  }

  /** A disk on controller 5 and a disk on controller 3: the one on the
      earlier-listed controller 3 comes first, whatever the item order. */
  lemma SeparateControllersOrder(onScsi: Item, onSata: Item)
    requires IsDiskItem(onScsi) && IsDiskItem(onSata)
    requires onScsi.parent == Some("5") && onSata.parent == Some("3")
    ensures DiskResolutionOrder([Sata, Usb, Scsi] + [onScsi, onSata]) == [onSata, onScsi]
  {
    SplitItems([Sata, Usb, Scsi], [onScsi, onSata]);
    SeparateControllersHead(onScsi, onSata);
  }

  lemma SeparateControllersHead(onScsi: Item, onSata: Item)
    requires onScsi.parent == Some("5") && onSata.parent == Some("3")
    ensures ResolutionOrder([Sata, Usb, Scsi], [onScsi, onSata]) == [onSata, onScsi]
  {
    var disks := [onScsi, onSata];
    SeparateControllersTail(onScsi, onSata);
    FilterPair(onScsi, onSata, OnControllerFilter("3"));
    assert Seqs.Filter(disks, OnControllerFilter("3")) == [onSata];
    SortOne(onSata);
    OrderCons(Sata, [Usb, Scsi], disks);
    assert [Sata] + [Usb, Scsi] == [Sata, Usb, Scsi];
  }

  lemma SeparateControllersTail(onScsi: Item, onSata: Item)
    requires onScsi.parent == Some("5") && onSata.parent == Some("3")
    ensures ResolutionOrder([Usb, Scsi], [onScsi, onSata]) == [onScsi]
  {
    var disks := [onScsi, onSata];
    FilterPair(onScsi, onSata, OnControllerFilter("5"));
    assert Seqs.Filter(disks, OnControllerFilter("5")) == [onScsi];
    SortOne(onScsi);
    OrderLast(Scsi, disks);
    FilterPair(onScsi, onSata, OnControllerFilter("4"));
    assert Seqs.Filter(disks, OnControllerFilter("4")) == [];
    OrderSkipsEmpty(Usb, [Scsi], disks);
    assert [Usb] + [Scsi] == [Usb, Scsi];
  }

  const OnScsiAtZero := DiskItem("7", "0", "disk1", "ovf:/disk/vmdisk2", "5")
  const OnSataAtZero := DiskItem("6", "0", "disk0", "ovf:/disk/vmdisk1", "3")
  const SeparateControllerItems := [Sata, Usb, Scsi] + [OnScsiAtZero, OnSataAtZero]

  lemma DisksOnSeparateControllersOutOfOrder()
    ensures GetDiskInfos(Some(VirtualHardwareSection(SeparateControllerItems)),
                         Some(DiskSection(Section(None, ""), Some(DefaultDisks))), Some(DefaultFiles))
         == Ok(DefaultDiskInfos)
  {
    SplitItems([Sata, Usb, Scsi], [OnScsiAtZero, OnSataAtZero]);
    SeparateControllersOrder(OnScsiAtZero, OnSataAtZero);
    DefaultDisksResolve(OnSataAtZero, OnScsiAtZero);
  }

  /** The first disk in attachment order names no `ovf:/disk/` resource. */
  lemma InvalidDiskReferenceFormat()
    ensures
      var invalid := DiskItem("6", "0", "disk0", "INVALID_DISK_HOST_RESOURCE", "3");
      GetDiskInfos(Some(VirtualHardwareSection([Sata, Usb, Scsi] + [OnScsiAtZero, invalid])),
                   Some(DiskSection(Section(None, ""), Some(DefaultDisks))), Some(DefaultFiles))
        == Err(InvalidHostResourceFormat("INVALID_DISK_HOST_RESOURCE"))
  {
    var invalid := DiskItem("6", "0", "disk0", "INVALID_DISK_HOST_RESOURCE", "3");
    SplitItems([Sata, Usb, Scsi], [OnScsiAtZero, invalid]);
    SeparateControllersOrder(OnScsiAtZero, invalid);
    assert !(DiskHostResourcePrefix <= "INVALID_DISK_HOST_RESOURCE") by {
      assert "INVALID_DISK_HOST_RESOURCE"[0] != DiskHostResourcePrefix[0];
    }
    ResolveFirstFails(invalid, OnScsiAtZero, DefaultDisks, DefaultFiles,
                      InvalidHostResourceFormat("INVALID_DISK_HOST_RESOURCE"));
  }

  const Dangling := DiskItem("7", "0", "disk1", "ovf:/disk/vmdisk_DOESNT_EXIST", "5")

  lemma DanglingDiskFails()
    ensures ResolveDisk(Dangling, DefaultDisks, DefaultFiles) == Err(DiskReferenceNotFound("vmdisk_DOESNT_EXIST"))
  {
    assert HostResourceDiskId(Dangling) == Ok("vmdisk_DOESNT_EXIST");
    assert DefaultDisks[1..][1..] == [];
    assert FindDisk(DefaultDisks, "vmdisk_DOESNT_EXIST") == None;
  }

  /** The second disk in attachment order names a disk id the DiskSection
      does not have. */
  lemma MissingDiskReference()
    ensures GetDiskInfos(Some(VirtualHardwareSection([Sata, Usb, Scsi] + [Dangling, OnSataAtZero])),
                         Some(DiskSection(Section(None, ""), Some(DefaultDisks))), Some(DefaultFiles))
         == Err(DiskReferenceNotFound("vmdisk_DOESNT_EXIST"))
  {
    SplitItems([Sata, Usb, Scsi], [Dangling, OnSataAtZero]);
    SeparateControllersOrder(Dangling, OnSataAtZero);
    AllocationUnits.GigabyteCapacities();
    ResolvesToFile1(OnSataAtZero, DefaultDisks, DefaultFiles, "20", GbUnits, 20);
    DanglingDiskFails();
    ResolveSecondFails(OnSataAtZero, Dangling, DefaultDisks, DefaultFiles, DiskInfo(Href1, 20),
                       DiskReferenceNotFound("vmdisk_DOESNT_EXIST"));
  }

  lemma SecondFileMissing()
    ensures ResolveDisk(OnScsiAtZero, DefaultDisks, [DefaultFiles[0]]) == Err(FileReferenceNotFound("file2"))
  {
    assert HostResourceDiskId(OnScsiAtZero) == Ok("vmdisk2");
    assert DefaultDisks[1..][0] == DefaultDisks[1];
    assert FindDisk(DefaultDisks, "vmdisk2") == Some(DefaultDisks[1]);
    assert [DefaultFiles[0]][1..] == [];
    assert FindFile([DefaultFiles[0]], "file2") == None;
  }

  /** The References section lacks the file of the second disk. */
  lemma MissingFileReference()
    ensures GetDiskInfos(Some(VirtualHardwareSection(SeparateControllerItems)),
                         Some(DiskSection(Section(None, ""), Some(DefaultDisks))), Some([DefaultFiles[0]]))
         == Err(FileReferenceNotFound("file2"))
  {
    var files := [DefaultFiles[0]];
    SplitItems([Sata, Usb, Scsi], [OnScsiAtZero, OnSataAtZero]);
    SeparateControllersOrder(OnScsiAtZero, OnSataAtZero);
    AllocationUnits.GigabyteCapacities();
    ResolvesToFile1(OnSataAtZero, DefaultDisks, files, "20", GbUnits, 20);
    SecondFileMissing();
    ResolveSecondFails(OnSataAtZero, OnScsiAtZero, DefaultDisks, files, DiskInfo(Href1, 20),
                       FileReferenceNotFound("file2"));
  }

  const Orphan := DiskItem("8", "0", "disk2", "ovf:/disk/vmdisk3", "123")

  lemma OrphanHasNoController()
    ensures !HasKnownParent(ControllerIds(ControllersOf(SeparateControllerItems)), Orphan)
  {
    SplitItems([Sata, Usb, Scsi], [OnScsiAtZero, OnSataAtZero]);
    forall c | c in [Sata, Usb, Scsi]
      ensures c.instanceId != "123"
    {
    }
  }

  /** A third disk on controller 123, which the section does not have, is
      skipped even though its disk id resolves nowhere. */
  lemma DiskWithoutParentController()
    ensures GetDiskInfos(Some(VirtualHardwareSection(SeparateControllerItems + [Orphan])),
                         Some(DiskSection(Section(None, ""), Some(DefaultDisks))), Some(DefaultFiles))
         == Ok(DefaultDiskInfos)
  {
    OrphanHasNoController();
    OrphanAppended(SeparateControllerItems, Orphan,
                   Some(DiskSection(Section(None, ""), Some(DefaultDisks))), Some(DefaultFiles));
    DisksOnSeparateControllersOutOfOrder();
  }

  lemma AppendAtEnd(items: seq<Item>, x: Item)
    ensures items[..|items|] + [x] + items[|items|..] == items + [x]
  {
    assert items[..|items|] == items && items[|items|..] == [];
  }

  lemma OrphanAppended(items: seq<Item>, orphan: Item, diskSection: Option<DiskSection>, files: Option<seq<File>>)
    requires IsDiskItem(orphan) && !HasKnownParent(ControllerIds(ControllersOf(items)), orphan)
    ensures GetDiskInfos(Some(VirtualHardwareSection(items + [orphan])), diskSection, files)
         == GetDiskInfos(Some(VirtualHardwareSection(items)), diskSection, files)
  {
    AppendAtEnd(items, orphan);
    OrphanDiskSkipped(items, |items|, orphan, diskSection, files);
  }

  /** Disk items but no controller at all. */
  lemma NoControllers()
    ensures
      var disks := [DiskItem("7", "0", "disk1", "ovf:/disk/vmdisk2", "5"),
                    DiskItem("6", "0", "disk0", "ovf:/disk/vmdisk1", "3"),
                    DiskItem("8", "0", "disk2", "ovf:/disk/vmdisk3", "123")];
      GetDiskInfos(Some(VirtualHardwareSection(disks)),
                   Some(DiskSection(Section(None, ""), Some(DefaultDisks))), Some(DefaultFiles))
        == Err(NoDiskControllers)
  {
    var disks := [DiskItem("7", "0", "disk1", "ovf:/disk/vmdisk2", "5"),
                  DiskItem("6", "0", "disk0", "ovf:/disk/vmdisk1", "3"),
                  DiskItem("8", "0", "disk2", "ovf:/disk/vmdisk3", "123")];
    Seqs.FilterNone(disks, IsController);
  }

  /** Each missing input is reported before anything is resolved. */
  lemma NilInputs(hardware: VirtualHardwareSection)
    ensures GetDiskInfos(Some(hardware), Some(DiskSection(Section(None, ""), Some(DefaultDisks))), None)
         == Err(NilFileReferences)
    ensures GetDiskInfos(Some(hardware), None, Some(DefaultFiles)) == Err(NilDiskSection)
    ensures GetDiskInfos(Some(hardware), Some(DiskSection(Section(None, ""), None)), Some(DefaultFiles))
         == Err(NoDisks)
    ensures GetDiskInfos(Some(hardware), Some(DiskSection(Section(None, ""), Some([]))), Some(DefaultFiles))
         == Err(NoDisks)
    ensures GetDiskInfos(None, Some(DiskSection(Section(None, ""), Some(DefaultDisks))), Some(DefaultFiles))
         == Err(NilVirtualHardware)
  {
  }
}

=== FILE: ovf_disks.dfy ===
/** `GetDiskInfos`: which disks a virtual hardware section attaches, in the
    order the import attaches them, and where their content and size come
    from.  A disk item is joined to its controller through `Parent`, to a
    VirtualDisk through its hostResource `ovf:/disk/<diskId>`, and to a File
    through the VirtualDisk's `fileRef`.  Disks come out controller by
    controller (controllers in document order), and on one controller in
    ascending `AddressOnParent` order; disk items whose `Parent` names no
    controller of the section are not attached at all. */
module OvfDisks {
  import opened Wrappers
  import opened OvfErrors
  import opened OvfModel
  import opened Seqs
  import StringOrder
  import AllocationUnits

  /** `DiskInfo`: where a disk's content is and its size in GB. */
  datatype DiskInfo = DiskInfo(filePath: string, sizeInGB: nat)

  type Item = ResourceAllocationSettingData

  const DiskHostResourcePrefix: string := "ovf:/disk/"

  // Lookups by id ---------------------------------------------------------

  function DiskIdOf(disk: VirtualDisk): string { disk.diskId }

  function FileIdOf(file: File): string { file.id }

  /** The first VirtualDisk of the section with id `diskId`. */
  function FindDisk(disks: seq<VirtualDisk>, diskId: string): Option<VirtualDisk> {
    FindFirst(disks, DiskIdOf, diskId)
  }

  /** The first File of the References section with id `id`. */
  function FindFile(files: seq<File>, id: string): Option<File> {
    FindFirst(files, FileIdOf, id)
  }

  /** The disk id that a disk item's first hostResource names. */
  function HostResourceDiskId(item: Item): (r: Result<string, Error>)
    ensures r.Ok? <==> |item.hostResource| > 0 && DiskHostResourcePrefix <= item.hostResource[0]
    ensures r.Ok? ==> item.hostResource[0] == DiskHostResourcePrefix + r.value
    ensures r.Err? ==> r.error.InvalidHostResourceFormat?
  {
    if item.hostResource == [] then Err(InvalidHostResourceFormat(""))
    else
      var hostResource := item.hostResource[0];
      if DiskHostResourcePrefix <= hostResource then
        Ok(hostResource[|DiskHostResourcePrefix|..])
      else
        Err(InvalidHostResourceFormat(hostResource))
  }

  /** `info` is what the disk item resolves to: the item names a VirtualDisk
      whose fileRef names a File, `info` carries that File's href and the
      VirtualDisk's capacity in GB. */
  ghost predicate Resolves(item: Item, disks: seq<VirtualDisk>, files: seq<File>, info: DiskInfo) {
    exists disk, file :: disk in disks && file in files
      && |item.hostResource| > 0
      && item.hostResource[0] == DiskHostResourcePrefix + disk.diskId
      && disk.fileRef == Some(file.id)
      && disk.capacityAllocationUnits.Some?
      && AllocationUnits.CapacityInGB(disk.capacity, disk.capacityAllocationUnits.value) == Ok(info.sizeInGB)
      && info.filePath == file.href
  }

  /** One disk item, joined to its VirtualDisk and File. */
  function ResolveDisk(item: Item, disks: seq<VirtualDisk>, files: seq<File>): (r: Result<DiskInfo, Error>)
    ensures r.Ok? ==> Resolves(item, disks, files, r.value)
    ensures HostResourceDiskId(item).Err? ==> r == Err(HostResourceDiskId(item).error)
    ensures HostResourceDiskId(item).Ok? && FindDisk(disks, HostResourceDiskId(item).value).None?
            ==> r == Err(DiskReferenceNotFound(HostResourceDiskId(item).value))
    ensures HostResourceDiskId(item).Ok? && FindDisk(disks, HostResourceDiskId(item).value).Some?
            ==> var disk := FindDisk(disks, HostResourceDiskId(item).value).value;
                && (disk.fileRef.None? ==> r == Err(MissingFileRef(disk.diskId)))
                && (disk.fileRef.Some? && FindFile(files, disk.fileRef.value).None?
                    ==> r == Err(FileReferenceNotFound(disk.fileRef.value)))
    ensures HostResourceDiskId(item).Ok? && FindDisk(disks, HostResourceDiskId(item).value).Some?
            ==> var disk := FindDisk(disks, HostResourceDiskId(item).value).value;
                disk.fileRef.Some? && FindFile(files, disk.fileRef.value).Some?
                ==> var file := FindFile(files, disk.fileRef.value).value;
                    && (disk.capacityAllocationUnits.None? ==> r == Err(MissingAllocationUnits))
                    && (disk.capacityAllocationUnits.Some? ==>
                          var size := AllocationUnits.CapacityInGB(disk.capacity, disk.capacityAllocationUnits.value);
                          && (size.Ok? ==> r == Ok(DiskInfo(file.href, size.value)))
                          && (size.Err? ==> r == Err(size.error)))
  {
    var diskId :- HostResourceDiskId(item);
    match FindDisk(disks, diskId)
    case None => Err(DiskReferenceNotFound(diskId))
    case Some(disk) =>
      if disk.fileRef.None? then Err(MissingFileRef(diskId))
      else match FindFile(files, disk.fileRef.value)
        case None => Err(FileReferenceNotFound(disk.fileRef.value))
        case Some(file) =>
          if disk.capacityAllocationUnits.None? then Err(MissingAllocationUnits)
          else
            var size :- AllocationUnits.CapacityInGB(disk.capacity, disk.capacityAllocationUnits.value);
            Ok(DiskInfo(file.href, size))
  }

  /** Resolves disk items in turn and stops at the first failure. */
  function ResolveAll(order: seq<Item>, disks: seq<VirtualDisk>, files: seq<File>): (r: Result<seq<DiskInfo>, Error>)
    ensures r.Ok? <==> forall i :: 0 <= i < |order| ==> ResolveDisk(order[i], disks, files).Ok?
    ensures r.Ok? ==> |r.value| == |order|
                      && forall i :: 0 <= i < |order| ==> ResolveDisk(order[i], disks, files) == Ok(r.value[i])
    ensures r.Err? ==> exists i :: 0 <= i < |order| && ResolveDisk(order[i], disks, files) == Err(r.error)
                        && forall j :: 0 <= j < i ==> ResolveDisk(order[j], disks, files).Ok?
  {
    if order == [] then Ok([])
    else
      var head :- ResolveDisk(order[0], disks, files);
      var tail :- ResolveAll(order[1..], disks, files);
      Ok([head] + tail)
  }

  // Controllers and the order of disks ------------------------------------

  predicate IsDiskItem(item: Item) {
    IsOfType(item, Disk)
  }

  function ControllersOf(items: seq<Item>): seq<Item> {
    Filter(items, IsController)
  }

  function DiskItemsOf(items: seq<Item>): seq<Item> {
    Filter(items, IsDiskItem)
  }

  function ControllerIds(controllers: seq<Item>): set<string> {
    set c | c in controllers :: c.instanceId
  }

  predicate OnController(id: string, item: Item) {
    item.parent == Some(id)
  }

  function OnControllerFilter(id: string): Item -> bool {
    item => OnController(id, item)
  }

  function KnownParentFilter(ids: set<string>): Item -> bool {
    item => HasKnownParent(ids, item)
  }

  /** The item's Parent is one of the given controller ids. */
  predicate HasKnownParent(ids: set<string>, item: Item) {
    item.parent.Some? && item.parent.value in ids
  }

  /** The sort key of a disk on its controller (an absent address sorts
      first). */
  function AddressKey(item: Item): string {
    item.addressOnParent.GetOr("")
  }

  predicate SortedByAddress(s: seq<Item>) {
    forall i, j :: 0 <= i < j < |s| ==> StringOrder.LessEq(AddressKey(s[i]), AddressKey(s[j]))
  }

  function InsertByAddress(x: Item, s: seq<Item>): (r: seq<Item>)
    requires SortedByAddress(s)
    ensures SortedByAddress(r)
    ensures multiset(r) == multiset{x} + multiset(s)
  {
    if s == [] then [x]
    else if StringOrder.LessEq(AddressKey(x), AddressKey(s[0])) then
      InsertedFirst(x, s);
      [x] + s
    else
      var rest := InsertByAddress(x, s[1..]);
      StringOrder.Total(AddressKey(x), AddressKey(s[0]));
      InsertedLater(x, s, rest);
      assert s == [s[0]] + s[1..];
      [s[0]] + rest
  }

  lemma InsertedFirst(x: Item, s: seq<Item>)
    requires SortedByAddress(s) && s != []
    requires StringOrder.LessEq(AddressKey(x), AddressKey(s[0]))
    ensures SortedByAddress([x] + s)
  {
    forall j | 0 <= j < |s|
      ensures StringOrder.LessEq(AddressKey(x), AddressKey(s[j]))
    {
      if j > 0 {
        StringOrder.Transitive(AddressKey(x), AddressKey(s[0]), AddressKey(s[j]));
      }
    }
  }

  lemma InsertedLater(x: Item, s: seq<Item>, rest: seq<Item>)
    requires SortedByAddress(s) && s != []
    requires StringOrder.LessEq(AddressKey(s[0]), AddressKey(x))
    requires SortedByAddress(rest) && multiset(rest) == multiset{x} + multiset(s[1..])
    ensures SortedByAddress([s[0]] + rest)
  {
    forall j | 0 <= j < |rest|
      ensures StringOrder.LessEq(AddressKey(s[0]), AddressKey(rest[j]))
    {
      assert rest[j] in multiset(rest);
      if rest[j] != x {
        assert rest[j] in multiset(s[1..]);
        var k :| 0 <= k < |s[1..]| && s[1..][k] == rest[j];
        assert s[k + 1] == rest[j];
      }
    }
  }

  /** Insertion sort by address. */
  function SortByAddress(s: seq<Item>): (r: seq<Item>)
    ensures SortedByAddress(r)
    ensures multiset(r) == multiset(s)
  {
    if s == [] then []
    else
      assert s == [s[0]] + s[1..];
      InsertByAddress(s[0], SortByAddress(s[1..]))
  }

  /** For each controller in turn, the disk items on it sorted by
      address. */
  function ResolutionOrder(controllers: seq<Item>, diskItems: seq<Item>): seq<Item> {
    if controllers == [] then []
    else
      var id := controllers[0].instanceId;
      SortByAddress(Filter(diskItems, OnControllerFilter(id)))
        + ResolutionOrder(controllers[1..], diskItems)
  }

  function DiskResolutionOrder(items: seq<Item>): seq<Item> {
    ResolutionOrder(ControllersOf(items), DiskItemsOf(items))
  }

  /** `GetDiskInfos`: the disks of `hardware`, in attachment order, with
      their file paths and sizes. */
  function GetDiskInfos(hardware: Option<VirtualHardwareSection>, diskSection: Option<DiskSection>,
                        files: Option<seq<File>>): (r: Result<seq<DiskInfo>, Error>)
    ensures hardware.None? ==> r == Err(NilVirtualHardware)
    ensures hardware.Some? && diskSection.None? ==> r == Err(NilDiskSection)
    ensures (hardware.Some? && diskSection.Some?
             && (diskSection.value.disks.None? || diskSection.value.disks.value == [])) ==> r == Err(NoDisks)
    ensures (hardware.Some? && diskSection.Some? && diskSection.value.disks.Some?
             && diskSection.value.disks.value != [] && files.None?) ==> r == Err(NilFileReferences)
    ensures hardware.Some? && ControllersOf(hardware.value.items) == [] ==> r.Err?
    ensures (hardware.Some? && diskSection.Some? && diskSection.value.disks.Some?
             && diskSection.value.disks.value != [] && files.Some?)
            ==> var items := hardware.value.items;
                && (ControllersOf(items) == [] ==> r == Err(NoDiskControllers))
                && (ControllersOf(items) != [] ==>
                      r == ResolveAll(DiskResolutionOrder(items), diskSection.value.disks.value, files.value))
    ensures r.Ok? ==>
      && diskSection.Some? && diskSection.value.disks.Some? && files.Some? && hardware.Some?
      && var order := DiskResolutionOrder(hardware.value.items);
         && |r.value| == |order|
         && forall i :: 0 <= i < |order| ==>
              Resolves(order[i], diskSection.value.disks.value, files.value, r.value[i])
  {
    if hardware.None? then Err(NilVirtualHardware)
    else if diskSection.None? then Err(NilDiskSection)
    else if diskSection.value.disks.None? || diskSection.value.disks.value == [] then Err(NoDisks)
    else if files.None? then Err(NilFileReferences)
    else
      var items := hardware.value.items;
      if ControllersOf(items) == [] then Err(NoDiskControllers)
      else ResolveAll(DiskResolutionOrder(items), diskSection.value.disks.value, files.value)
  }

  // Properties of the attachment order -------------------------------------

  lemma ControllerIdsSplit(controllers: seq<Item>)
    requires controllers != []
    ensures ControllerIds(controllers) == {controllers[0].instanceId} + ControllerIds(controllers[1..])
  {
    assert controllers == [controllers[0]] + controllers[1..];
  }

  /** A disk item is attached exactly when its Parent names one of the
      controllers. */
  lemma {:induction false} ResolutionOrderMembers(controllers: seq<Item>, diskItems: seq<Item>, x: Item)
    ensures x in ResolutionOrder(controllers, diskItems)
        <==> x in diskItems && HasKnownParent(ControllerIds(controllers), x)
  {
    if controllers != [] {
      var id := controllers[0].instanceId;
      var group := Filter(diskItems, OnControllerFilter(id));
      ResolutionOrderMembers(controllers[1..], diskItems, x);
      ControllerIdsSplit(controllers);
      assert x in SortByAddress(group) <==> x in group by {
        assert x in SortByAddress(group) <==> x in multiset(SortByAddress(group));
      }
      assert x in group <==> x in diskItems && OnController(id, x) by {
        if x in diskItems && OnController(id, x) {
          var i :| 0 <= i < |diskItems| && diskItems[i] == x;
        }
      }
    }
  }

  predicate DistinctInstanceIds(controllers: seq<Item>) {
    forall i, j :: 0 <= i < j < |controllers| ==> controllers[i].instanceId != controllers[j].instanceId
  }

  /** With distinct controller ids, every disk item on a controller is
      attached exactly once, and nothing else is attached. */
  lemma {:induction false} ResolutionOrderCounts(controllers: seq<Item>, diskItems: seq<Item>)
    requires DistinctInstanceIds(controllers)
    ensures multiset(ResolutionOrder(controllers, diskItems))
         == multiset(Filter(diskItems, KnownParentFilter(ControllerIds(controllers))))
  {
    var all := KnownParentFilter(ControllerIds(controllers));
    if controllers == [] {
      forall x
        ensures multiset(Filter(diskItems, all))[x] == 0
      {
        FilterCount(diskItems, all, x);
      }
    } else {
      var id, rest := controllers[0].instanceId, controllers[1..];
      var here, later := OnControllerFilter(id), KnownParentFilter(ControllerIds(rest));
      ResolutionOrderCounts(rest, diskItems);
      ControllerIdsSplit(controllers);
      assert id !in ControllerIds(rest);
      forall x
        ensures multiset(ResolutionOrder(controllers, diskItems))[x] == multiset(Filter(diskItems, all))[x]
      {
        FilterCount(diskItems, here, x);
        FilterCount(diskItems, later, x);
        FilterCount(diskItems, all, x);
      }
    }
  }

  lemma FilterSkips(a: seq<Item>, x: Item, b: seq<Item>, p: Item -> bool)
    requires !p(x)
    ensures Filter(a + [x] + b, p) == Filter(a + b, p)
  {
    FilterConcat(a + [x], b, p);
    FilterConcat(a, [x], p);
    FilterConcat(a, b, p);
    assert Filter([x], p) == [];
  }

  lemma {:induction false} ResolutionOrderSkips(controllers: seq<Item>, a: seq<Item>, x: Item, b: seq<Item>)
    requires !HasKnownParent(ControllerIds(controllers), x)
    ensures ResolutionOrder(controllers, a + [x] + b) == ResolutionOrder(controllers, a + b)
  {
    if controllers != [] {
      ControllerIdsSplit(controllers);
      FilterSkips(a, x, b, OnControllerFilter(controllers[0].instanceId));
      ResolutionOrderSkips(controllers[1..], a, x, b);
    }
  }

  /** A disk item whose Parent names no controller of the section is
      skipped wherever it stands, even when its hostResource would not
      resolve. */
  lemma OrphanDiskSkipped(items: seq<Item>, k: nat, orphan: Item,
                          diskSection: Option<DiskSection>, files: Option<seq<File>>)
    requires k <= |items| && IsDiskItem(orphan)
    requires !HasKnownParent(ControllerIds(ControllersOf(items)), orphan)
    ensures DiskResolutionOrder(items[..k] + [orphan] + items[k..]) == DiskResolutionOrder(items)
    ensures GetDiskInfos(Some(VirtualHardwareSection(items[..k] + [orphan] + items[k..])), diskSection, files)
         == GetDiskInfos(Some(VirtualHardwareSection(items)), diskSection, files)
  {
    var a, b := items[..k], items[k..];
    assert items == a + b;
    FilterSkips(a, orphan, b, IsController);
    FilterConcat(a + [orphan], b, IsDiskItem);
    FilterConcat(a, [orphan], IsDiskItem);
    FilterConcat(a, b, IsDiskItem);
    assert Filter([orphan], IsDiskItem) == [orphan];
    ResolutionOrderSkips(ControllersOf(items), Filter(a, IsDiskItem), orphan, Filter(b, IsDiskItem));
  }

  /** Controllers with no disk item attached to them give an empty disk
      list, not an error: a section without disk items, and one whose disk
      items all name unknown Parents. */
  lemma NothingAttached(items: seq<Item>, disks: seq<VirtualDisk>, files: seq<File>)
    requires disks != [] && ControllersOf(items) != []
    requires forall i :: 0 <= i < |items| && IsDiskItem(items[i])
               ==> !HasKnownParent(ControllerIds(ControllersOf(items)), items[i])
    ensures DiskResolutionOrder(items) == []
    ensures GetDiskInfos(Some(VirtualHardwareSection(items)), Some(DiskSection(Section(None, ""), Some(disks))),
                         Some(files)) == Ok([])
  {
    var order := DiskResolutionOrder(items);
    if order != [] {
      ResolutionOrderMembers(ControllersOf(items), DiskItemsOf(items), order[0]);
      assert false;
    }
  }

  predicate UniqueAddresses(s: seq<Item>) {
    forall x, y :: x in s && y in s && AddressKey(x) == AddressKey(y) ==> x == y
  }

  /** The head of an address-sorted sequence has the least address. */
  lemma SortedHeadLeast(s: seq<Item>, x: Item)
    requires SortedByAddress(s) && s != [] && x in s
    ensures StringOrder.LessEq(AddressKey(s[0]), AddressKey(x))
  {
    var i :| 0 <= i < |s| && s[i] == x;
    if i == 0 {
      StringOrder.Reflexive(AddressKey(x));
    }
  }

  lemma SameHead(s: seq<Item>, t: seq<Item>)
    requires SortedByAddress(s) && SortedByAddress(t) && s != [] && t != []
    requires multiset(s) == multiset(t) && UniqueAddresses(s)
    ensures s[0] == t[0]
  {
    assert s[0] in multiset(t) && t[0] in multiset(s);
    SortedHeadLeast(s, t[0]);
    SortedHeadLeast(t, s[0]);
    StringOrder.Antisymmetric(AddressKey(s[0]), AddressKey(t[0]));
  }

  /** Two address-sorted arrangements of the same disks are the same when
      no two disks share an address. */
  lemma {:induction false} SortedPermutationsEqual(s: seq<Item>, t: seq<Item>)
    requires SortedByAddress(s) && SortedByAddress(t)
    requires multiset(s) == multiset(t) && UniqueAddresses(s)
    ensures s == t
  {
    if s == [] {
      assert |t| == |multiset(t)| == 0;
    } else {
      assert t != [] by {
        assert |t| == |multiset(t)| == |multiset(s)| == |s|;
      }
      SameHead(s, t);
      assert s == [s[0]] + s[1..];
      assert t == [t[0]] + t[1..];
      assert multiset(s[1..]) == multiset(t[1..]) by {
        calc {
          multiset(s[1..]);
          multiset(s) - multiset{s[0]};
          multiset(t) - multiset{t[0]};
          multiset(t[1..]);
        }
      }
      assert UniqueAddresses(s[1..]) by {
        forall x | x in s[1..] ensures x in s { }
      }
      SortedPermutationsEqual(s[1..], t[1..]);
    }
  }

  predicate AddressesUniquePerController(diskItems: seq<Item>) {
    forall x, y :: (x in diskItems && y in diskItems && x.parent == y.parent
                    && AddressKey(x) == AddressKey(y)) ==> x == y
  }

  lemma {:induction false} ResolutionOrderOfPermutation(controllers: seq<Item>, d1: seq<Item>, d2: seq<Item>)
    requires multiset(d1) == multiset(d2) && AddressesUniquePerController(d1)
    ensures ResolutionOrder(controllers, d1) == ResolutionOrder(controllers, d2)
  {
    if controllers != [] {
      var p := OnControllerFilter(controllers[0].instanceId);
      FilterPermutation(d1, d2, p);
      var s, t := SortByAddress(Filter(d1, p)), SortByAddress(Filter(d2, p));
      assert UniqueAddresses(s) by {
        forall x, y | x in s && y in s && AddressKey(x) == AddressKey(y)
          ensures x == y
        {
          assert x in multiset(s) && y in multiset(s);
          assert x in Filter(d1, p) && y in Filter(d1, p);
        }
      }
      SortedPermutationsEqual(s, t);
      ResolutionOrderOfPermutation(controllers[1..], d1, d2);
    }
  }

  /** The document order of disk items does not matter: only controllers
      and addresses decide the attachment order. */
  lemma DocumentOrderOfDisksIrrelevant(items1: seq<Item>, items2: seq<Item>,
                                       diskSection: Option<DiskSection>, files: Option<seq<File>>)
    requires ControllersOf(items1) == ControllersOf(items2)
    requires multiset(DiskItemsOf(items1)) == multiset(DiskItemsOf(items2))
    requires AddressesUniquePerController(DiskItemsOf(items1))
    ensures DiskResolutionOrder(items1) == DiskResolutionOrder(items2)
    ensures GetDiskInfos(Some(VirtualHardwareSection(items1)), diskSection, files)
         == GetDiskInfos(Some(VirtualHardwareSection(items2)), diskSection, files)
  {
    ResolutionOrderOfPermutation(ControllersOf(items1), DiskItemsOf(items1), DiskItemsOf(items2));
  }
}

=== FILE: ovf_errors.dfy ===
/** The error conditions of the OVF import layer.  Go reports them as
    formatted `error` values; here each condition is a constructor, so that
    a contract can say which one a call fails with. */
module OvfErrors {

  datatype Error =
    // Section getters
    | NilDescriptor
    | NoVirtualSystem
    | NilVirtualSystem
    | NoVirtualHardware
    // Inputs of the hardware resolver
    | NilVirtualHardware
    | NilDiskSection
    | NoDisks
    | NilFileReferences
    | NoReferencesSection
    | NoDiskControllers
    | NoCPUSpec
    | NoMemorySpec
    // Unit and capacity text
    | MissingAllocationUnits
    | InvalidAllocationUnits(units: string)
    | InvalidCapacityValue(capacity: string)
    // Joining a disk item to its VirtualDisk and File
    | InvalidHostResourceFormat(hostResource: string)
    | DiskReferenceNotFound(diskId: string)
    | MissingFileRef(diskId: string)
    | FileReferenceNotFound(fileRef: string)
    // Package validation
    | ReferenceNotFoundInPackage(href: string, packagePath: string)
    // An error produced by a collaborator (storage, XML decoding, a loader
    // or validator implementation), passed on verbatim
    | External(message: string)
}

=== FILE: ovf_hardware.dfy ===
/** Section getters and the CPU and memory facts of a virtual hardware
    section (package `ovfutils`).  Each returns a value or an error, never
    both. */
module OvfHardware {
  import opened Wrappers
  import opened OvfErrors
  import opened OvfModel
  import AllocationUnits

  /** `GetVirtualSystem`: the descriptor's VirtualSystem. */
  function GetVirtualSystem(descriptor: Option<Descriptor>): (r: Result<VirtualSystem, Error>)
    ensures r.Ok? <==> descriptor.Some? && descriptor.value.virtualSystem.Some?
    ensures r.Ok? ==> Some(r.value) == descriptor.value.virtualSystem
    ensures descriptor.None? ==> r == Err(NilDescriptor)
    ensures descriptor.Some? && descriptor.value.virtualSystem.None? ==> r == Err(NoVirtualSystem)
  {
    if descriptor.None? then Err(NilDescriptor)
    else if descriptor.value.virtualSystem.None? then Err(NoVirtualSystem)
    else Ok(descriptor.value.virtualSystem.value)
  }

  /** `GetVirtualHardwareSection`: the first of the virtual system's
      hardware sections. */
  function GetVirtualHardwareSection(virtualSystem: Option<VirtualSystem>): (r: Result<VirtualHardwareSection, Error>)
    ensures r.Ok? <==> virtualSystem.Some? && virtualSystem.value.virtualHardware.Some?
                       && |virtualSystem.value.virtualHardware.value| > 0
    ensures r.Ok? ==> r.value == virtualSystem.value.virtualHardware.value[0]
    ensures virtualSystem.None? ==> r == Err(NilVirtualSystem)
    ensures r.Err? && virtualSystem.Some? ==> r == Err(NoVirtualHardware)
  {
    if virtualSystem.None? then Err(NilVirtualSystem)
    else match virtualSystem.value.virtualHardware
      case None => Err(NoVirtualHardware)
      case Some(sections) => if sections == [] then Err(NoVirtualHardware) else Ok(sections[0])
  }

  /** `GetVirtualHardwareSectionFromDescriptor`: the two getters above in
      turn. */
  function GetVirtualHardwareSectionFromDescriptor(descriptor: Option<Descriptor>): (r: Result<VirtualHardwareSection, Error>)
    ensures r.Ok? <==> descriptor.Some? && descriptor.value.virtualSystem.Some?
                       && descriptor.value.virtualSystem.value.virtualHardware.Some?
                       && |descriptor.value.virtualSystem.value.virtualHardware.value| > 0
    ensures r.Ok? ==> r.value == descriptor.value.virtualSystem.value.virtualHardware.value[0]
    ensures r.Err? ==> r.error in {NilDescriptor, NoVirtualSystem, NoVirtualHardware}
  {
    var virtualSystem :- GetVirtualSystem(descriptor);
    GetVirtualHardwareSection(Some(virtualSystem))
  }

  /** Item i is the first one of resource type t. */
  predicate IsFirstOfType(items: seq<ResourceAllocationSettingData>, i: int, t: uint16) {
    && 0 <= i < |items|
    && IsOfType(items[i], t)
    && forall j :: 0 <= j < i ==> !IsOfType(items[j], t)
  }

  /** The index of the first item of resource type `t`, if any. */
  function FirstOfType(items: seq<ResourceAllocationSettingData>, t: uint16): (r: Option<nat>)
    ensures r.Some? ==> r.value < |items| && IsOfType(items[r.value], t)
    ensures r.Some? ==> forall j :: 0 <= j < r.value ==> !IsOfType(items[j], t)
    ensures r.None? ==> forall j :: 0 <= j < |items| ==> !IsOfType(items[j], t)
  {
    if items == [] then None
    else if IsOfType(items[0], t) then Some(0)
    else match FirstOfType(items[1..], t)
      case None => None
      case Some(k) => Some(k + 1)
  }

  /** `GetNumberOfCPUs`: the VirtualQuantity of the first CPU item. */
  function GetNumberOfCPUs(hardware: Option<VirtualHardwareSection>): (r: Result<nat, Error>)
    ensures hardware.None? ==> r == Err(NilVirtualHardware)
    ensures r.Ok? <==> hardware.Some? && exists i :: IsFirstOfType(hardware.value.items, i, Cpu)
                                                     && hardware.value.items[i].virtualQuantity.Some?
    ensures r.Ok? ==> exists i :: IsFirstOfType(hardware.value.items, i, Cpu)
                                  && hardware.value.items[i].virtualQuantity == Some(r.value)
    ensures hardware.Some? && r.Err? ==> r.error == NoCPUSpec
  {
    if hardware.None? then Err(NilVirtualHardware)
    else match FirstOfType(hardware.value.items, Cpu)
      case None => Err(NoCPUSpec)
      case Some(i) =>
        var quantity := hardware.value.items[i].virtualQuantity;
        if quantity.None? then Err(NoCPUSpec) else Ok(quantity.value)
  }

  /** `GetMemoryInMB`: the VirtualQuantity of the first memory item,
      converted to MB according to its AllocationUnits. */
  function GetMemoryInMB(hardware: Option<VirtualHardwareSection>): (r: Result<nat, Error>)
    ensures hardware.None? ==> r == Err(NilVirtualHardware)
    ensures hardware.Some? ==>
      var items := hardware.value.items;
      match FirstOfType(items, Memory)
      case None => r == Err(NoMemorySpec)
      case Some(i) =>
        if items[i].virtualQuantity.None? then r == Err(NoMemorySpec)
        else if items[i].allocationUnits.None? then r == Err(MissingAllocationUnits)
        else
          var units := items[i].allocationUnits.value;
          (r.Ok? <==> AllocationUnits.UnitExponent(units).Some?)
          && (r.Ok? ==> r.value * AllocationUnits.MiB
                        == items[i].virtualQuantity.value * AllocationUnits.UnitBytes(AllocationUnits.UnitExponent(units).value))
          && (r.Err? ==> r.error == InvalidAllocationUnits(units))
  {
    if hardware.None? then Err(NilVirtualHardware)
    else match FirstOfType(hardware.value.items, Memory)
      case None => Err(NoMemorySpec)
      case Some(i) =>
        var item := hardware.value.items[i];
        if item.virtualQuantity.None? then Err(NoMemorySpec)
        else if item.allocationUnits.None? then Err(MissingAllocationUnits)
        else AllocationUnits.MemoryInMB(item.virtualQuantity.value, item.allocationUnits.value)
  }

  /** Only the first CPU item counts: items after it, of any kind, do not
      change the CPU count. */
  lemma {:induction false} CpusFirstWins(prefix: seq<ResourceAllocationSettingData>,
                                         cpu: ResourceAllocationSettingData,
                                         rest: seq<ResourceAllocationSettingData>)
    requires forall j :: 0 <= j < |prefix| ==> !IsOfType(prefix[j], Cpu)
    requires IsOfType(cpu, Cpu) && cpu.virtualQuantity.Some?
    ensures GetNumberOfCPUs(Some(VirtualHardwareSection(prefix + [cpu] + rest))) == Ok(cpu.virtualQuantity.value)
  {
    var items := prefix + [cpu] + rest;
    assert items[|prefix|] == cpu;
    assert forall j :: 0 <= j < |prefix| ==> items[j] == prefix[j];
    assert FirstOfType(items, Cpu) == Some(|prefix|);
  }

  /** Likewise, only the first memory item counts. */
  lemma {:induction false} MemoryFirstWins(prefix: seq<ResourceAllocationSettingData>,
                                           memory: ResourceAllocationSettingData,
                                           rest: seq<ResourceAllocationSettingData>)
    requires forall j :: 0 <= j < |prefix| ==> !IsOfType(prefix[j], Memory)
    requires IsOfType(memory, Memory)
    ensures GetMemoryInMB(Some(VirtualHardwareSection(prefix + [memory] + rest)))
         == GetMemoryInMB(Some(VirtualHardwareSection([memory])))
  {
    var items := prefix + [memory] + rest;
    assert items[|prefix|] == memory;
    assert forall j :: 0 <= j < |prefix| ==> items[j] == prefix[j];
    assert FirstOfType(items, Memory) == Some(|prefix|);
    assert FirstOfType([memory], Memory) == Some(0);
  }
}

=== FILE: ovf_loader.dfy ===
/** The OVF descriptor loader: finds the `.ovf` file under a package path,
    reads it, decodes the XML and hands the descriptor to the package
    validator.  Storage, XML decoding and the validator are collaborators,
    held by the loader as function values. */
module OvfLoading {
  import opened Wrappers
  import opened OvfErrors
  import opened OvfModel
  import OvfValidation

  type ObjectHandle = OvfValidation.ObjectHandle

  /** The suffix the loader looks the descriptor up by. */
  const DescriptorSuffix := ".ovf"

  /** The loader and the collaborators it holds. */
  datatype OvfDescriptorLoader = OvfDescriptorLoader(
    findGcsFile: (string, string) -> Result<ObjectHandle, Error>,
    getGcsFileContent: ObjectHandle -> Result<seq<bv8>, Error>,
    unmarshal: seq<bv8> -> Result<Descriptor, Error>,
    validateOvfPackage: (Descriptor, string) -> Result<Descriptor, Error>)

  /** A call the loader makes on a collaborator, in the order made. */
  datatype Call =
    | FindCall(path: string, suffix: string)
    | ReadCall(handle: ObjectHandle)
    | ValidateCall(descriptor: Descriptor, path: string)

  /** What `Load` returns, together with the collaborator calls it made. */
  datatype LoadRun = LoadRun(result: Result<Descriptor, Error>, calls: seq<Call>)

  /** `OvfDescriptorLoader.Load`: a chain of fallible steps in which each
      step's error is returned as it is and ends the chain. */
  function Load(loader: OvfDescriptorLoader, ovfPath: string): (run: LoadRun)
    // the descriptor is looked up once, by suffix, under the given path
    ensures 1 <= |run.calls| <= 3 && run.calls[0] == FindCall(ovfPath, DescriptorSuffix)
    ensures loader.findGcsFile(ovfPath, DescriptorSuffix).Err? ==>
      run.result == Err(loader.findGcsFile(ovfPath, DescriptorSuffix).error) && |run.calls| == 1
    // the handle found is read once
    ensures loader.findGcsFile(ovfPath, DescriptorSuffix).Ok? ==>
      var handle := loader.findGcsFile(ovfPath, DescriptorSuffix).value;
      && |run.calls| >= 2 && run.calls[1] == ReadCall(handle)
      && (loader.getGcsFileContent(handle).Err? ==>
            run.result == Err(loader.getGcsFileContent(handle).error) && |run.calls| == 2)
    // content that does not decode ends the run with the decoder's error
    ensures loader.findGcsFile(ovfPath, DescriptorSuffix).Ok? ==>
      var content := loader.getGcsFileContent(loader.findGcsFile(ovfPath, DescriptorSuffix).value);
      content.Ok? && loader.unmarshal(content.value).Err? ==>
        run.result == Err(loader.unmarshal(content.value).error) && |run.calls| == 2
    // a decoded descriptor is always handed to the validator
    ensures loader.findGcsFile(ovfPath, DescriptorSuffix).Ok? ==>
      var content := loader.getGcsFileContent(loader.findGcsFile(ovfPath, DescriptorSuffix).value);
      content.Ok? && loader.unmarshal(content.value).Ok? ==>
        && |run.calls| == 3
        && run.calls[2] == ValidateCall(loader.unmarshal(content.value).value, ovfPath)
        && run.result == loader.validateOvfPackage(loader.unmarshal(content.value).value, ovfPath)
    // validation sees the decoded descriptor and the original path
    ensures |run.calls| == 3 ==>
      && loader.findGcsFile(ovfPath, DescriptorSuffix).Ok?
      && var content := loader.getGcsFileContent(loader.findGcsFile(ovfPath, DescriptorSuffix).value);
         && content.Ok? && loader.unmarshal(content.value).Ok?
         && run.calls[2] == ValidateCall(loader.unmarshal(content.value).value, ovfPath)
         && run.result == loader.validateOvfPackage(loader.unmarshal(content.value).value, ovfPath)
    // a successful load is the validator's answer
    ensures run.result.Ok? ==> |run.calls| == 3
  {
    match loader.findGcsFile(ovfPath, DescriptorSuffix)
    case Err(e) => LoadRun(Err(e), [FindCall(ovfPath, DescriptorSuffix)])
    case Ok(handle) =>
      var calls := [FindCall(ovfPath, DescriptorSuffix), ReadCall(handle)];
      match loader.getGcsFileContent(handle)
      case Err(e) => LoadRun(Err(e), calls)
      case Ok(content) =>
        match loader.unmarshal(content)
        case Err(e) => LoadRun(Err(e), calls)
        case Ok(descriptor) =>
          LoadRun(loader.validateOvfPackage(descriptor, ovfPath),
                  calls + [ValidateCall(descriptor, ovfPath)])
  }

  /** With the package validator of this model in place, a load succeeds
      exactly when the descriptor is found, read, decoded and all of its
      referenced files exist, and it then yields the decoded descriptor. */
  lemma LoadWithPackageValidator(loader: OvfDescriptorLoader, find: OvfValidation.FindGcsFile, ovfPath: string)
    requires forall d, p :: loader.validateOvfPackage(d, p) == OvfValidation.PackageValidation(find, Some(d), p)
    ensures Load(loader, ovfPath).result.Ok? ==>
      && |Load(loader, ovfPath).calls| == 3
      && Load(loader, ovfPath).calls[2] == ValidateCall(Load(loader, ovfPath).result.value, ovfPath)
      && var files := OvfValidation.ReferencedFiles(Load(loader, ovfPath).result.value);
         files.Some? ==> forall i :: 0 <= i < |files.value| ==> OvfValidation.Found(find(ovfPath, files.value[i].href))
  {
    var run := Load(loader, ovfPath);
    if run.result.Ok? {
      var d := run.calls[2].descriptor;
      assert run.result == OvfValidation.PackageValidation(find, Some(d), ovfPath);
    }
  }

  // The descriptor of the loader's sample document: only an Annotation
  // section, which is not required, and no References section.
  const SampleInfo := "INFO_STR"
  const SampleAnnotation := "ANNOTATION_STR"
  const SampleDescriptor := Descriptor(
    None,
    Some(AnnotationSection(Section(Some(false), SampleInfo), SampleAnnotation)),
    None,
    None)

  /** The sample run: lookup, read and validation succeed, and the
      validator's descriptor is returned after exactly three calls. */
  lemma SampleLoad(loader: OvfDescriptorLoader, ovfPath: string, handle: ObjectHandle, content: seq<bv8>)
    requires loader.findGcsFile(ovfPath, DescriptorSuffix) == Ok(handle)
    requires loader.getGcsFileContent(handle) == Ok(content)
    requires loader.unmarshal(content) == Ok(SampleDescriptor)
    requires loader.validateOvfPackage(SampleDescriptor, ovfPath) == Ok(SampleDescriptor)
    ensures Load(loader, ovfPath) == LoadRun(Ok(SampleDescriptor), [
      FindCall(ovfPath, DescriptorSuffix), ReadCall(handle), ValidateCall(SampleDescriptor, ovfPath)])
  {
  }

  /** The package validator as written panics on the loader's own sample
      descriptor, which has no References section; read as "nothing to
      validate", the same descriptor is accepted without any lookup. */
  lemma SampleDescriptorPanicsAsWritten(find: OvfValidation.FindGcsFile, ovfPath: string)
    ensures OvfValidation.ValidateOvfPackageAsWritten(find, Some(SampleDescriptor), ovfPath).Panicked?
    ensures OvfValidation.PackageValidation(find, Some(SampleDescriptor), ovfPath) == Ok(SampleDescriptor)
  {
  }
}

=== FILE: ovf_model.dfy ===
/** The OVF descriptor (DMTF DSP0243) as the import tool holds it after XML
    decoding.  Every Go pointer field becomes an `Option`, so a section that
    is absent from the XML (`None`) stays distinct from one that is present
    but empty (`Some` of an empty value).  A Go slice that the code tests
    against nil is an `Option<seq<_>>`; a slice that is only iterated or
    indexed is a plain `seq`, since a nil slice behaves as an empty one
    there. */
module OvfModel {
  import opened Wrappers

  /** Go's `uint16`, the width of a CIM ResourceType code. */
  newtype uint16 = x: int | 0 <= x < 0x1_0000

  /** Common part of OVF sections: `ovf:required` is tri-state. */
  datatype Section = Section(required: Option<bool>, info: string)

  /** Common part of OVF content elements such as VirtualSystem. */
  datatype Content = Content(id: string, info: string, name: string)

  /** An entry of the References section.  `size` is carried as data only. */
  datatype File = File(id: string, href: string, size: nat)

  datatype ReferencesSection = ReferencesSection(section: Section, files: Option<seq<File>>)

  datatype AnnotationSection = AnnotationSection(section: Section, annotation: string)

  /** A Disk element of the DiskSection: `diskId` and the capacity text are
      always there, `fileRef` and the capacity units may be absent. */
  datatype VirtualDisk = VirtualDisk(
    diskId: string,
    fileRef: Option<string>,
    capacity: string,
    capacityAllocationUnits: Option<string>)

  datatype DiskSection = DiskSection(section: Section, disks: Option<seq<VirtualDisk>>)

  /** One CIM RASD Item of a VirtualHardwareSection.  Only `instanceId`,
      `elementName` and the `hostResource` list are always present. */
  datatype ResourceAllocationSettingData = ResourceAllocationSettingData(
    resourceType: Option<uint16>,
    parent: Option<string>,
    instanceId: string,
    addressOnParent: Option<string>,
    hostResource: seq<string>,
    virtualQuantity: Option<nat>,
    virtualQuantityUnits: Option<string>,
    allocationUnits: Option<string>,
    elementName: string)

  datatype VirtualHardwareSection = VirtualHardwareSection(items: seq<ResourceAllocationSettingData>)

  datatype VirtualSystem = VirtualSystem(
    content: Content,
    virtualHardware: Option<seq<VirtualHardwareSection>>)

  /** The root of a descriptor: each of the four sections is independently
      optional. */
  datatype Descriptor = Descriptor(
    references: Option<ReferencesSection>,
    annotation: Option<AnnotationSection>,
    virtualSystem: Option<VirtualSystem>,
    disk: Option<DiskSection>)

  /** CIM ResourceType codes the resolver looks for. */
  const Cpu: uint16 := 3
  const Memory: uint16 := 4
  const IdeController: uint16 := 5
  const ParallelScsiController: uint16 := 6
  const Disk: uint16 := 17
  const SataController: uint16 := 20
  const UsbController: uint16 := 23

  /** Resource types that the disk resolver treats as disk controllers. */
  const ControllerTypes: set<uint16> := {IdeController, ParallelScsiController, SataController, UsbController}

  predicate IsOfType(item: ResourceAllocationSettingData, t: uint16) {
    item.resourceType == Some(t)
  }

  predicate IsController(item: ResourceAllocationSettingData) {
    item.resourceType.Some? && item.resourceType.value in ControllerTypes
  }
}

=== FILE: ovf_package.dfy ===
/** The entry point of the import side: load a package's descriptor and
    list the disks to import, with their full storage paths. */
module OvfPackage {
  import opened Wrappers
  import opened OvfErrors
  import opened OvfModel
  import opened OvfHardware
  import opened OvfDisks

  /** The disks of a loaded descriptor, before the package path is put in
      front of their file names.  A descriptor without a References section
      is an error here; one whose References list no files reaches the disk
      resolver, which refuses nil files. */
  function DescriptorDiskInfos(descriptor: Descriptor): (r: Result<seq<DiskInfo>, Error>)
    ensures GetVirtualHardwareSectionFromDescriptor(Some(descriptor)).Err? ==>
      r == Err(GetVirtualHardwareSectionFromDescriptor(Some(descriptor)).error)
    ensures (GetVirtualHardwareSectionFromDescriptor(Some(descriptor)).Ok? && descriptor.references.None?)
      ==> r == Err(NoReferencesSection)
    ensures (GetVirtualHardwareSectionFromDescriptor(Some(descriptor)).Ok? && descriptor.references.Some?)
      ==> r == GetDiskInfos(Some(GetVirtualHardwareSectionFromDescriptor(Some(descriptor)).value), descriptor.disk,
                            descriptor.references.value.files)
    ensures r.Ok? ==>
      && descriptor.references.Some?
      && GetVirtualHardwareSectionFromDescriptor(Some(descriptor)).Ok?
      && GetDiskInfos(Some(GetVirtualHardwareSectionFromDescriptor(Some(descriptor)).value), descriptor.disk,
                      descriptor.references.value.files) == r
  {
    var hardware :- GetVirtualHardwareSectionFromDescriptor(Some(descriptor));
    if descriptor.references.None? then Err(NoReferencesSection)
    else GetDiskInfos(Some(hardware), descriptor.disk, descriptor.references.value.files)
  }

  /** Puts the package path in front of every file path. */
  function WithPackagePath(packagePath: string, infos: seq<DiskInfo>): (r: seq<DiskInfo>)
    ensures |r| == |infos|
    ensures forall i :: 0 <= i < |infos| ==>
      r[i].filePath == packagePath + infos[i].filePath && r[i].sizeInGB == infos[i].sizeInGB
  {
    seq(|infos|, i requires 0 <= i < |infos| =>
      DiskInfo(packagePath + infos[i].filePath, infos[i].sizeInGB))
  }

  /** `GetOVFDescriptorAndDiskPaths`: either the loaded descriptor, unchanged,
      with one entry per attached disk whose path is the package path
      followed by the file's href, or an error and nothing else. */
  function GetOVFDescriptorAndDiskPaths(load: string -> Result<Descriptor, Error>, packagePath: string)
    : (r: Result<(Descriptor, seq<DiskInfo>), Error>)
    ensures load(packagePath).Err? ==> r == Err(load(packagePath).error)
    ensures load(packagePath).Ok? && DescriptorDiskInfos(load(packagePath).value).Err? ==>
      r == Err(DescriptorDiskInfos(load(packagePath).value).error)
    ensures load(packagePath).Ok? && DescriptorDiskInfos(load(packagePath).value).Ok? ==>
      r == Ok((load(packagePath).value, WithPackagePath(packagePath, DescriptorDiskInfos(load(packagePath).value).value)))
    ensures r.Ok? ==>
      && load(packagePath) == Ok(r.value.0)
      && var infos := DescriptorDiskInfos(r.value.0);
         && infos.Ok?
         && |r.value.1| == |infos.value|
         && forall i :: 0 <= i < |infos.value| ==>
              && r.value.1[i].filePath == packagePath + infos.value[i].filePath
              && r.value.1[i].sizeInGB == infos.value[i].sizeInGB
  {
    match load(packagePath)
    case Err(e) => Err(e)
    case Ok(descriptor) =>
      match DescriptorDiskInfos(descriptor)
      case Err(e) => Err(e)
      case Ok(infos) => Ok((descriptor, WithPackagePath(packagePath, infos)))
  }

  /** Every path returned names a file of the References section, under
      the package path, with the size of the VirtualDisk that points at it;
      the list follows the controller-then-address attachment order. */
  lemma DiskPathsResolve(load: string -> Result<Descriptor, Error>, packagePath: string)
    requires GetOVFDescriptorAndDiskPaths(load, packagePath).Ok?
    ensures
      var (descriptor, infos) := GetOVFDescriptorAndDiskPaths(load, packagePath).value;
      && descriptor.references.Some? && descriptor.references.value.files.Some?
      && descriptor.disk.Some? && descriptor.disk.value.disks.Some?
      && GetVirtualHardwareSectionFromDescriptor(Some(descriptor)).Ok?
      && var order := DiskResolutionOrder(GetVirtualHardwareSectionFromDescriptor(Some(descriptor)).value.items);
         && |infos| == |order|
         && forall i :: 0 <= i < |order| ==>
              Resolves(order[i], descriptor.disk.value.disks.value, descriptor.references.value.files.value,
                       DiskInfo(infos[i].filePath[|packagePath|..], infos[i].sizeInGB))
  {
    var (descriptor, infos) := GetOVFDescriptorAndDiskPaths(load, packagePath).value;
    var hardware := GetVirtualHardwareSectionFromDescriptor(Some(descriptor)).value;
    var unprefixed := DescriptorDiskInfos(descriptor).value;
    assert GetDiskInfos(Some(hardware), descriptor.disk, descriptor.references.value.files) == Ok(unprefixed);
    forall i | 0 <= i < |infos|
      ensures DiskInfo(infos[i].filePath[|packagePath|..], infos[i].sizeInGB) == unprefixed[i]
    {
    }
  }
}

=== FILE: ovf_package_scenarios.dfy ===
/** Worked packages for the entry point of the import side: a descriptor
    under `gs://abucket/apath/` with a SATA and a parallel SCSI controller
    and two disks on the SCSI one, and descriptors missing one section each. */
module OvfPackageScenarios {
  import opened Wrappers
  import opened OvfErrors
  import opened OvfModel
  import opened OvfHardware
  import opened OvfDisks
  import opened OvfPackage
  import opened OvfDiskScenarios

  const PackagePath := "gs://abucket/apath/"

  const PackageItems := [Sata, Scsi] + SingleControllerDisks

  function WithHardware(items: seq<Item>): Option<VirtualSystem> {
    Some(VirtualSystem(Content("", "", ""), Some([VirtualHardwareSection(items)])))
  }

  const PackageDescriptor := Descriptor(
    Some(ReferencesSection(Section(None, ""), Some(DefaultFiles))),
    None,
    WithHardware(PackageItems),
    Some(DiskSection(Section(None, ""), Some(DefaultDisks))))

  lemma TwoControllerOrder()
    ensures DiskResolutionOrder(PackageItems) == [SingleControllerDisks[1], SingleControllerDisks[0]]
  {
    var disks := SingleControllerDisks;
    SplitItems([Sata, Scsi], disks);
    assert !StringOrder.LessEq(AddressKey(disks[0]), AddressKey(disks[1]));
    SataThenScsi(disks[0], disks[1]);
  }

  lemma SataThenScsi(later: Item, earlier: Item)
    requires later.parent == Some("5") && earlier.parent == Some("5")
    requires !StringOrder.LessEq(AddressKey(later), AddressKey(earlier))
    ensures ResolutionOrder([Sata, Scsi], [later, earlier]) == [earlier, later]
  {
    ScsiOrder(later, earlier);
    FilterPair(later, earlier, OnControllerFilter("3"));
    OrderSkipsEmpty(Sata, [Scsi], [later, earlier]);
    assert [Sata] + [Scsi] == [Sata, Scsi];
  }

  lemma PackageDiskInfos()
    ensures DescriptorDiskInfos(PackageDescriptor) == Ok(DefaultDiskInfos)
  {
    assert GetVirtualHardwareSectionFromDescriptor(Some(PackageDescriptor)) == Ok(VirtualHardwareSection(PackageItems));
    SplitItems([Sata, Scsi], SingleControllerDisks);
    assert DescriptorDiskInfos(PackageDescriptor)
        == ResolveAll(DiskResolutionOrder(PackageItems), DefaultDisks, DefaultFiles);
    TwoControllerOrder();
    DefaultDisksResolve(SingleControllerDisks[1], SingleControllerDisks[0]);
  }

  /** The loaded descriptor comes back unchanged, with the package path in
      front of each disk file. */
  lemma DiskPathsUnderPackage(load: string -> Result<Descriptor, Error>)
    requires load(PackagePath) == Ok(PackageDescriptor)
    ensures GetOVFDescriptorAndDiskPaths(load, PackagePath)
         == Ok((PackageDescriptor, [DiskInfo(PackagePath + Href1, 20), DiskInfo(PackagePath + Href2, 1)]))
  {
    PackageDiskInfos();
    PrefixedDefaultDiskInfos();
  }

  lemma PrefixedDefaultDiskInfos()
    ensures WithPackagePath(PackagePath, DefaultDiskInfos)
         == [DiskInfo(PackagePath + Href1, 20), DiskInfo(PackagePath + Href2, 1)]
  {
  }

  /** A descriptor with only a SATA controller and no disk items. */
  const SataOnlyDescriptor := PackageDescriptor.(virtualSystem := WithHardware([Sata]))

  /** A descriptor missing the VirtualSystem, its hardware, the DiskSection
      or the References section yields that error and no paths. */
  lemma PackageMissingSections(load: string -> Result<Descriptor, Error>)
    ensures load(PackagePath) == Ok(PackageDescriptor.(virtualSystem := None))
        ==> GetOVFDescriptorAndDiskPaths(load, PackagePath) == Err(NoVirtualSystem)
    ensures load(PackagePath) == Ok(PackageDescriptor.(virtualSystem := Some(VirtualSystem(Content("", "", ""), None))))
        ==> GetOVFDescriptorAndDiskPaths(load, PackagePath) == Err(NoVirtualHardware)
    ensures load(PackagePath) == Ok(SataOnlyDescriptor.(disk := None))
        ==> GetOVFDescriptorAndDiskPaths(load, PackagePath) == Err(NilDiskSection)
    ensures load(PackagePath) == Ok(SataOnlyDescriptor.(references := None))
        ==> GetOVFDescriptorAndDiskPaths(load, PackagePath) == Err(NoReferencesSection)
  {
  }
}

=== FILE: ovf_validator.dfy ===
/** The OVF package validator: every file listed in the descriptor's
    References section must exist in Cloud Storage under the path of the
    package.  The storage client is a collaborator; its lookup is a
    function parameter here. */
module OvfValidation {
  import opened Wrappers
  import opened OvfErrors
  import opened OvfModel

  /** A storage object handle as the storage client returns it. */
  datatype ObjectHandle = ObjectHandle(bucket: string, objectName: string)

  /** What `FindGcsFile` returns: Go's (handle, error) pair, either side of
      which may be nil. */
  datatype Lookup = Lookup(handle: Option<ObjectHandle>, err: Option<Error>)

  /** The validator counts a reference as present only when the lookup gave
      a handle and no error. */
  predicate Found(lookup: Lookup) {
    lookup.handle.Some? && lookup.err.None?
  }

  /** The storage client's lookup of a file name under a package path. */
  type FindGcsFile = (string, string) -> Lookup

  /** The lookups made for the given files, in order. */
  function Queries(files: seq<File>, packagePath: string): seq<(string, string)> {
    seq(|files|, i requires 0 <= i < |files| => (packagePath, files[i].href))
  }

  /** The position of the first referenced file storage does not have. */
  function FirstMissing(find: FindGcsFile, files: seq<File>, packagePath: string): (r: Option<nat>)
    ensures r.None? <==> forall i :: 0 <= i < |files| ==> Found(find(packagePath, files[i].href))
    ensures r.Some? ==> r.value < |files| && !Found(find(packagePath, files[r.value].href))
    ensures r.Some? ==> forall i :: 0 <= i < r.value ==> Found(find(packagePath, files[i].href))
  {
    if files == [] then None
    else if !Found(find(packagePath, files[0].href)) then Some(0)
    else
      match FirstMissing(find, files[1..], packagePath)
      case None => None
      case Some(k) => Some(k + 1)
  }

  /** The outcome of checking a (possibly nil) list of references: nothing
      to check when it is nil, otherwise an error for the first missing
      file. */
  function ReferencesCheck(find: FindGcsFile, references: Option<seq<File>>, packagePath: string): (r: Option<Error>)
    ensures references.None? ==> r.None?
    ensures references.Some? ==>
      (r.None? <==> forall i :: 0 <= i < |references.value| ==> Found(find(packagePath, references.value[i].href)))
    ensures r.Some? ==>
      && references.Some?
      && var k := FirstMissing(find, references.value, packagePath).value;
         r.value == ReferenceNotFoundInPackage(references.value[k].href, packagePath)
  {
    if references.None? then None
    else
      match FirstMissing(find, references.value, packagePath)
      case None => None
      case Some(k) => Some(ReferenceNotFoundInPackage(references.value[k].href, packagePath))
  }

  /** How many lookups the check performs: up to and including the first
      missing file, or all of them. */
  function LookupCount(find: FindGcsFile, files: seq<File>, packagePath: string): (n: nat)
    ensures n <= |files|
  {
    match FirstMissing(find, files, packagePath)
    case None => |files|
    case Some(k) => k + 1
  }

  /** `validateReferencesExistInGcs`: looks every reference up at
      (package path, href) in order and stops at the first one that is not
      found. */
  method ValidateReferencesExistInGcs(find: FindGcsFile, references: Option<seq<File>>, packagePath: string)
    returns (err: Option<Error>, lookups: seq<(string, string)>)
    ensures err == ReferencesCheck(find, references, packagePath)
    ensures references.None? ==> lookups == []
    ensures references.Some? ==>
      lookups == Queries(references.value[..LookupCount(find, references.value, packagePath)], packagePath)
  {
    lookups := [];
    if references.None? {
      return None, lookups;
    }
    var files := references.value;
    var i := 0;
    while i < |files|
      invariant 0 <= i <= |files|
      invariant forall j :: 0 <= j < i ==> Found(find(packagePath, files[j].href))
      invariant lookups == Queries(files[..i], packagePath)
    {
      var reference := files[i];
      var lookup := find(packagePath, reference.href);
      lookups := lookups + [(packagePath, reference.href)];
      assert lookups == Queries(files[..i + 1], packagePath);
      if lookup.handle.None? || lookup.err.Some? {
        assert FirstMissing(find, files, packagePath) == Some(i);
        return Some(ReferenceNotFoundInPackage(reference.href, packagePath)), lookups;
      }
      i := i + 1;
    }
    assert files[..i] == files;
    err := None;
  }

  /** The files the descriptor references; a nil References section and a
      nil Files list both mean there is nothing to check. */
  function ReferencedFiles(descriptor: Descriptor): Option<seq<File>> {
    match descriptor.references
    case None => None
    case Some(references) => references.files
  }

  /** What `ValidateOvfPackage` is evidently meant to compute: a nil
      descriptor is an error, otherwise the descriptor is returned unchanged
      when every referenced file exists. */
  function PackageValidation(find: FindGcsFile, descriptor: Option<Descriptor>, packagePath: string)
    : (r: Result<Descriptor, Error>)
    ensures descriptor.None? ==> r == Err(NilDescriptor)
    ensures r.Ok? ==> descriptor == Some(r.value)
    ensures descriptor.Some? && ReferencedFiles(descriptor.value).None? ==> r == Ok(descriptor.value)
    ensures descriptor.Some? && ReferencedFiles(descriptor.value).Some? ==>
      var files := ReferencedFiles(descriptor.value).value;
      (r.Ok? <==> forall i :: 0 <= i < |files| ==> Found(find(packagePath, files[i].href)))
    ensures r.Err? && descriptor.Some? ==>
      exists i :: 0 <= i < |ReferencedFiles(descriptor.value).value|
        && r.error == ReferenceNotFoundInPackage(ReferencedFiles(descriptor.value).value[i].href, packagePath)
        && !Found(find(packagePath, ReferencedFiles(descriptor.value).value[i].href))
  {
    if descriptor.None? then Err(NilDescriptor)
    else
      match ReferencesCheck(find, ReferencedFiles(descriptor.value), packagePath)
      case Some(err) => Err(err)
      case None => Ok(descriptor.value)
  }

  /** `ValidateOvfPackage`, with the nil References section read as "nothing
      to validate". */
  method ValidateOvfPackage(find: FindGcsFile, descriptor: Option<Descriptor>, packagePath: string)
    returns (r: Result<Descriptor, Error>, lookups: seq<(string, string)>)
    ensures r == PackageValidation(find, descriptor, packagePath)
    ensures descriptor.None? || ReferencedFiles(descriptor.value).None? ==> lookups == []
    ensures descriptor.Some? && ReferencedFiles(descriptor.value).Some? ==>
      var files := ReferencedFiles(descriptor.value).value;
      lookups == Queries(files[..LookupCount(find, files, packagePath)], packagePath)
  {
    if descriptor.None? {
      return Err(NilDescriptor), [];
    }
    var err;
    err, lookups := ValidateReferencesExistInGcs(find, ReferencedFiles(descriptor.value), packagePath);
    if err.Some? {
      return Err(err.value), lookups;
    }
    r := Ok(descriptor.value);
  }

  /** Validation stops at the first missing file: the files after it are
      never looked up. */
  lemma {:induction false} StopsAtFirstMissing(find: FindGcsFile, files: seq<File>, packagePath: string, k: nat)
    requires k < |files| && !Found(find(packagePath, files[k].href))
    requires forall i :: 0 <= i < k ==> Found(find(packagePath, files[i].href))
    ensures LookupCount(find, files, packagePath) == k + 1
    ensures ReferencesCheck(find, Some(files), packagePath)
         == Some(ReferenceNotFoundInPackage(files[k].href, packagePath))
  {
    var m := FirstMissing(find, files, packagePath);
    assert m.Some?;
    assert !(m.value < k);
    assert !(m.value > k);
  }

  /** How a Go call ends: it returns a value, or it panics. */
  datatype Outcome<T> = Returned(value: T) | Panicked

  /** `ValidateOvfPackage` as written: the References pointer is followed
      without a nil check, so a descriptor without a References section
      makes the call panic before the nil-list check of the helper is
      reached. */
  function ValidateOvfPackageAsWritten(find: FindGcsFile, descriptor: Option<Descriptor>, packagePath: string)
    : (r: Outcome<Result<Descriptor, Error>>)
    ensures r.Panicked? <==> descriptor.Some? && descriptor.value.references.None?
    ensures r.Returned? ==> r.value == PackageValidation(find, descriptor, packagePath)
  {
    if descriptor.None? then Returned(Err(NilDescriptor))
    else if descriptor.value.references.None? then Panicked
    else
      match ReferencesCheck(find, descriptor.value.references.value.files, packagePath)
      case Some(err) => Returned(Err(err))
      case None => Returned(Ok(descriptor.value))
  }
}

=== FILE: seqs.dfy ===
/** Filtering a sequence, looking an element up by key, and the facts about
    them that the disk resolver's proofs need. */
module Seqs {
  import opened Wrappers

  /** The elements of `s` that satisfy `p`, in their original order. */
  function Filter<T>(s: seq<T>, p: T -> bool): (r: seq<T>)
    ensures |r| <= |s|
    ensures forall i :: 0 <= i < |r| ==> r[i] in s && p(r[i])
    ensures forall i :: 0 <= i < |s| && p(s[i]) ==> s[i] in r
  {
    if s == [] then []
    else if p(s[0]) then [s[0]] + Filter(s[1..], p)
    else Filter(s[1..], p)
  }

  lemma {:induction false} FilterConcat<T>(a: seq<T>, b: seq<T>, p: T -> bool)
    ensures Filter(a + b, p) == Filter(a, p) + Filter(b, p)
  {
    if a == [] {
      assert a + b == b;
    } else {
      assert (a + b)[0] == a[0];
      assert (a + b)[1..] == a[1..] + b;
      FilterConcat(a[1..], b, p);
    }
  }

  /** Filtering keeps every occurrence of a satisfying element and drops all
      others. */
  lemma {:induction false} FilterCount<T>(s: seq<T>, p: T -> bool, x: T)
    ensures multiset(Filter(s, p))[x] == if p(x) then multiset(s)[x] else 0
  {
    if s != [] {
      FilterCount(s[1..], p, x);
      assert s == [s[0]] + s[1..];
    }
  }

  /** Filtering two permutations of each other gives permutations of each
      other. */
  lemma FilterPermutation<T>(s: seq<T>, t: seq<T>, p: T -> bool)
    requires multiset(s) == multiset(t)
    ensures multiset(Filter(s, p)) == multiset(Filter(t, p))
  {
    forall x
      ensures multiset(Filter(s, p))[x] == multiset(Filter(t, p))[x]
    {
      FilterCount(s, p, x);
      FilterCount(t, p, x);
    }
  }

  /** Nothing satisfies `p`: the filter is empty. */
  lemma FilterNone<T>(s: seq<T>, p: T -> bool)
    requires forall i :: 0 <= i < |s| ==> !p(s[i])
    ensures Filter(s, p) == []
  {
  }

  /** Everything satisfies `p`: the filter keeps the whole sequence. */
  lemma {:induction false} FilterAll<T>(s: seq<T>, p: T -> bool)
    requires forall i :: 0 <= i < |s| ==> p(s[i])
    ensures Filter(s, p) == s
  {
    if s != [] {
      FilterAll(s[1..], p);
    }
  }

  /** The first element of `s` whose key is `k`, if there is one. */
  function FindFirst<T, K(==)>(s: seq<T>, key: T -> K, k: K): (r: Option<T>)
    ensures r.Some? ==> r.value in s && key(r.value) == k
    ensures r.None? <==> forall i :: 0 <= i < |s| ==> key(s[i]) != k
  {
    if s == [] then None
    else if key(s[0]) == k then Some(s[0])
    else FindFirst(s[1..], key, k)
  }

  /** An element whose key is `k` and that no earlier element's key matches
      is the one found. */
  lemma {:induction false} FindFirstAt<T, K>(s: seq<T>, key: T -> K, k: K, i: nat)
    requires i < |s| && key(s[i]) == k
    requires forall j :: 0 <= j < i ==> key(s[j]) != k
    ensures FindFirst(s, key, k) == Some(s[i])
  {
    if i > 0 {
      FindFirstAt(s[1..], key, k, i - 1);
    }
  }
}

=== FILE: string_order.dfy ===
/** Go's ordering of strings: lexicographic, element by element.  Go
    compares UTF-8 bytes; on well-formed text that is the same order as
    comparing code points, which is what Dafny's `char` comparison does. */
module StringOrder {

  predicate LessEq(a: string, b: string) {
    a == [] || (b != [] && (a[0] < b[0] || (a[0] == b[0] && LessEq(a[1..], b[1..]))))
  }

  lemma {:induction false} Reflexive(a: string)
    ensures LessEq(a, a)
  {
    if a != [] {
      Reflexive(a[1..]);
    }
  }

  lemma {:induction false} Total(a: string, b: string)
    ensures LessEq(a, b) || LessEq(b, a)
  {
    if a != [] && b != [] && a[0] == b[0] {
      Total(a[1..], b[1..]);
    }
  }

  lemma {:induction false} Transitive(a: string, b: string, c: string)
    requires LessEq(a, b) && LessEq(b, c)
    ensures LessEq(a, c)
  {
    if a != [] && a[0] == b[0] && b[0] == c[0] {
      Transitive(a[1..], b[1..], c[1..]);
    }
  }

  lemma {:induction false} Antisymmetric(a: string, b: string)
    requires LessEq(a, b) && LessEq(b, a)
    ensures a == b
  {
    if a != [] && b != [] {
      Antisymmetric(a[1..], b[1..]);
      assert a == [a[0]] + a[1..];
      assert b == [b[0]] + b[1..];
    }
  }
}

=== FILE: wrappers.dfy ===
/** Option and Result, the failure-compatible wrappers used for Go's nil
    pointers and for its (value, error) return pairs. */
module Wrappers {

  /** A Go pointer or an optional XML attribute: absent (nil) or present. */
  datatype Option<+T> = None | Some(value: T) {

    predicate IsFailure() {
      None?
    }

    function PropagateFailure<U>(): Option<U>
      requires None?
    {
      None
    }

    function Extract(): T
      requires Some?
    {
      value
    }

    function GetOr(default: T): T {
      match this
      case Some(v) => v
      case None => default
    }
  }

  /** A Go (value, error) pair in which exactly one side is meaningful:
      on failure the value is nil. */
  datatype Result<+T, +E> = Ok(value: T) | Err(error: E) {

    predicate IsFailure() {
      Err?
    }

    function PropagateFailure<U>(): Result<U, E>
      requires Err?
    {
      Err(error)
    }

    function Extract(): T
      requires Ok?
    {
      value
    }
  }
}
